=== FILE: README.md ===
# OpenMDAO case scheduling, repository tool and delegate decorators in Dafny

This project models three pieces of OpenMDAO and proves properties of them.

- **The case-iterator driver** (`CaseIterDriverBase`). Cases are evaluated either
  in-process, one at a time (`step`), or on a pool of remote servers (`_start`).
  Both paths use the same per-worker state machine, `_server_ready`. It has
  four states:
  - `empty`: load the model;
  - `ready`: pick a case and run it;
  - `complete`: harvest the outputs, record the case and reload;
  - `error`: reload after a failed case set-up.

  Cases are moved between these places:
  - the case iterator;
  - the start-up list `_todo`;
  - the retry list `_rerun`;
  - the workers' slots;
  - the recorder.

  The central property is that a case is never copied or lost along the way.
  Every case handed to a run is recorded at most once. When the run completes,
  every case has been recorded exactly once. This holds for the concurrent and
  the sequential path alike.
- **`scripts/repo.py`**, a repository maintenance script:
  - `permission_bits`, the `ls`-style permission string;
  - the group-permission fix of `fix`, and the directory lines it prints in
    verbose mode;
  - the `lock`/`unlock` decisions;
  - the search for the `.bzr` root of a repository.
- **`add_delegate`, `forwarder` and `on_condition`** in `decorators.py`:
  - which delegate methods are promoted onto a class, and under which instance name;
  - the body text of a forwarding method;
  - the conditional application of a decorator.

Files:

| file | contents |
|---|---|
| `basics.dfy` | `Option`, `Result`, Python truthiness of optional strings |
| `cases.dfy` | cases and their identity multisets |
| `scheduler.dfy` | the scheduler state, `_run_case`, the four branches of `_server_ready`, `_load_model`, `_cleanup`, `setup` |
| `conservation.dfy` | the multiset of case identities a step conserves |
| `invariants.dfy` | well-formed slots, retry bounds, the egg transfer log |
| `driver.dfy` | the start-up wave and reply dispatch of `_start`, the reply queue as written, `step`, the `resume` loops |
| `runs.dfy` | whole-run theorems for both paths |
| `repo.dfy` | `scripts/repo.py` |
| `decorators.dfy` | `decorators.py` |

## How the driver is modelled

The scheduler state `Sched` is an immutable record with these fields:
- `source`: the cases the iterator has not yet produced;
- `exhausted`: stands for `_iter is None`;
- `todo` and `rerun`;
- a table of workers: state, case slot, in-use flag, cached egg;
- `recorded`: the cases handed to the recorder, in order;
- the transfer log of the egg;
- the stop flag.

A step is a pure function. Everything the coordinator learns from outside during
a step comes from an `Outcome` value:
- whether a load raised;
- whether setting events or inputs raised;
- the exception of the model run;
- the value of each output;
- whether a stop request arrived.

Worker threads and the reply queue are replaced by a sequence of `Event`s. The
sequence fixes which worker's message arrives next. The sequential path takes one
sequence of outcomes per `step`. A run that has consumed all of its events while
some worker is still in use ends as `Pending`.

In the code a worker's service thread replies only to a request on its own queue.
`_load_model` queues a load, `_model_execute` queues an execution, and
`_model_set` runs synchronously. So a step that only sets inputs, or a `complete`
step that does not reload, leaves its worker in use with no reply coming, and the
loop never ends (see Findings). Each step therefore reports whether it queued a
request (`Turn.queued`). `Driver.DispatchOwed` is the loop in which a message can
only come from a worker owed a reply:
- with `requeue` false it is the code as written;
- with `requeue` true it is the corrected driver, in which a worker that stays in
  use is owed another step.

`Driver.Dispatch`, on which every run theorem rests, lets a message come from any
worker in use. `Driver.DispatchFixedAgrees` proves it equal to the corrected loop.

A case's identity is the Python object, not its value: the driver mutates cases
in place. Identity is modelled as a `CaseId`, and the conservation invariant is
stated over the multiset of identities of the following places:
- the source;
- `todo` and `rerun`;
- the slots of workers in the `complete` state;
- `recorded`.

The slot of a worker in `error` is not counted. After a retried set-up failure,
that slot still refers to the case that also sits in `rerun`, until the `error`
step clears it.

## Model

| member | source | states |
|---|---|---|
| Scheduler.Cleanup | openmdao.lib/src/openmdao/lib/drivers/caseiterdriver.py:289-304 | after cleanup no worker is in use, `todo`, `rerun` and the worker table are empty, and the recorded cases, the iterator and the stop flag are kept |
| Scheduler.Setup | openmdao.lib/src/openmdao/lib/drivers/caseiterdriver.py:131-160 | a new run starts on a fresh, unexhausted iterator over the given cases with no queues, workers or transfers |
| Scheduler.LoadModel | openmdao.lib/src/openmdao/lib/drivers/caseiterdriver.py:491-511 | a load succeeds exactly when the oracle says so; only the loading worker's egg cache and the transfer log change; the egg is sent at most once per load and not at all when the worker already caches the run's egg; afterwards a remote worker caches the run's egg |
| Scheduler.ServerError | openmdao.lib/src/openmdao/lib/drivers/caseiterdriver.py:422-434 | a `_ServerError` is raised exactly when setting an event or an input fails |
| Scheduler.Prepared | openmdao.lib/src/openmdao/lib/drivers/caseiterdriver.py:412-419 | a fresh case gets zero retries and the driver's limit only when its own is falsy; a rerun keeps both counters; the message is cleared; identity, inputs and outputs are kept |
| Scheduler.RunCase | openmdao.lib/src/openmdao/lib/drivers/caseiterdriver.py:412-445 | the case is in the worker's slot; success leaves the worker `complete` with queues and records untouched; a failure leaves it in `error` and either appends the case to the back of `rerun` or records it, never both; retries stay within the limit |
| Scheduler.RetryPolicy | openmdao.lib/src/openmdao/lib/drivers/caseiterdriver.py:412-445 | a case that sets up cleanly runs as prepared; after a `_ServerError`, a case whose retries are below its limit goes to the back of `rerun` with one more retry and nothing is recorded; a case at its limit is recorded with the error's text as its message and `rerun` is unchanged |
| Scheduler.Harvest | openmdao.lib/src/openmdao/lib/drivers/caseiterdriver.py:369-375 | every output keeps its name and index; every readable output gets the value read and every unreadable one keeps its old value |
| Scheduler.HarvestKeepsMessage | openmdao.lib/src/openmdao/lib/drivers/caseiterdriver.py:369-375 | when every read succeeds the case message is left as it was |
| Scheduler.HarvestLastError | openmdao.lib/src/openmdao/lib/drivers/caseiterdriver.py:369-375 | when some read fails the message is the "Exception getting" text of the last failing read, prefixed by the driver's path |
| Scheduler.Completed | openmdao.lib/src/openmdao/lib/drivers/caseiterdriver.py:363-378 | a model exception becomes the message and leaves the outputs untouched; otherwise each output keeps its name and index, a readable one gets exactly the value read, and an unreadable one keeps its old value; identity, inputs and retry counters are kept |
| Scheduler.CompletedMessage | openmdao.lib/src/openmdao/lib/drivers/caseiterdriver.py:363-378 | the recorded message is the model exception's text, else the text of the last failing read, else the case's own message |
| Scheduler.EmptyTurn | openmdao.lib/src/openmdao/lib/drivers/caseiterdriver.py:321-331 | the worker retires, changing nothing, exactly when `todo` and `rerun` are empty and the iterator is exhausted; otherwise it stays in use and becomes `ready` if the load succeeds and `error` if it raises; the step touches only its own row, keeps the slot, the queues and the record, and queues a load exactly when a remote worker becomes `ready` |
| Scheduler.ReadyTurn | openmdao.lib/src/openmdao/lib/drivers/caseiterdriver.py:333-360 | the ready step touches only its own row and never the egg; when it does not run a case the slot is unchanged; when stepping it never pulls from the iterator; it queues an execution exactly when a remote worker becomes `complete`, so a failed set-up queues nothing |
| Scheduler.ReadyTurnOrder | openmdao.lib/src/openmdao/lib/drivers/caseiterdriver.py:333-360 | the priority order of the ready step: a stop request retires the worker and changes nothing; otherwise the front of `todo` runs, else the front of `rerun`; else an exhausted iterator or a stepping call retires the worker; else the next case is pulled from the iterator, and an empty iterator is marked exhausted and retires the worker; a worker that runs a case holds it and is `complete` if its set-up succeeded and `error` otherwise |
| Scheduler.CompleteTurn | openmdao.lib/src/openmdao/lib/drivers/caseiterdriver.py:362-393 | the step fails exactly when the slot is empty; otherwise the worker stays in use, `todo`, `rerun` and the iterator are kept, exactly the finished case (`Completed`) is appended to the record, the slot is emptied, and the worker ends `ready` exactly when no reload is wanted or the reload succeeds, else stays `complete`; nothing outside its row changes |
| Scheduler.Reload | openmdao.lib/src/openmdao/lib/drivers/caseiterdriver.py:383-393 | after recording, the worker becomes `ready` exactly when no reload is wanted or the reload succeeds, and otherwise stays `complete`; it stays in use and nothing more is recorded; a load is queued exactly when a reload is wanted and succeeds on a remote worker |
| Scheduler.ErrorTurn | openmdao.lib/src/openmdao/lib/drivers/caseiterdriver.py:395-402 | the error step keeps the worker in use, clears the slot, becomes `ready` if the reload succeeds and else stays `error`; it touches only its own row and queues a load exactly when a remote worker becomes `ready` |
| Scheduler.ServerReady | openmdao.lib/src/openmdao/lib/drivers/caseiterdriver.py:310-410 | a step changes only the stepped worker's row; a retiring worker was `empty` or `ready` and leaves the table and `todo` unchanged; a worker retires, unless stopped, only with `todo` and `rerun` empty and the iterator exhausted or stepping; a step that queues a request keeps its worker in use; with the corrected `_run_case`, the only failure is a `complete` step with an empty slot |
| Scheduler.RunCaseAsWritten | openmdao.lib/src/openmdao/lib/drivers/caseiterdriver.py:422-428 | as written, a failed event set aborts the step with an error, and every other outcome behaves like the corrected `_run_case` |
| Scheduler.EventFailureAborts | openmdao.lib/src/openmdao/lib/drivers/caseiterdriver.py:422-445 | a fresh case with retries left whose event set fails aborts as written, though the corrected code queues it for a retry |
| Scheduler.EventFailureRetried | openmdao.lib/src/openmdao/lib/drivers/caseiterdriver.py:437-445 | in the corrected code a failed event set puts the worker in `error` and the case either in `rerun` (while retries are left) or in the record with the event's message |
| Conservation.RunCaseConserves | openmdao.lib/src/openmdao/lib/drivers/caseiterdriver.py:412-445 | running a case adds exactly that case's identity to the pool |
| Conservation.ReadyTurnConserves | openmdao.lib/src/openmdao/lib/drivers/caseiterdriver.py:339-360 | popping a case from `todo`, `rerun` or the iterator and running it conserves the pool |
| Conservation.CompleteTurnConserves | openmdao.lib/src/openmdao/lib/drivers/caseiterdriver.py:362-393 | taking the case out of the slot and recording it conserves the pool |
| Conservation.ErrorTurnConserves | openmdao.lib/src/openmdao/lib/drivers/caseiterdriver.py:395-402 | clearing the stale slot of an `error` worker conserves the pool |
| Conservation.EmptyTurnConserves | openmdao.lib/src/openmdao/lib/drivers/caseiterdriver.py:321-331 | loading the model conserves the pool |
| Conservation.TurnConserves | openmdao.lib/src/openmdao/lib/drivers/caseiterdriver.py:310-410 | every step of every worker conserves the multiset of case identities |
| Invariants.TurnKeepsWellFormed | openmdao.lib/src/openmdao/lib/drivers/caseiterdriver.py:310-410 | `empty` and `ready` workers keep an empty slot across every step |
| Invariants.RunCaseKeepsBounded | openmdao.lib/src/openmdao/lib/drivers/caseiterdriver.py:437-445 | running a case keeps the retry bound: no queued, held or newly recorded case exceeds its limit (the retry decision itself is `RetryPolicy`) |
| Invariants.TurnKeepsRetriesBounded | openmdao.lib/src/openmdao/lib/drivers/caseiterdriver.py:310-445 | retries never exceed the limit in `rerun`, in any slot, or among the cases a step records |
| Invariants.TurnKeepsEggLogged | openmdao.lib/src/openmdao/lib/drivers/caseiterdriver.py:497-504 | after every step the transfer log holds a worker once exactly when it caches the run's egg |
| Invariants.EggSentAtMostOnce | openmdao.lib/src/openmdao/lib/drivers/caseiterdriver.py:499-504 | under that invariant the egg has been sent to each worker at most once (a corollary of the invariant) |
| Driver.StartLoop | openmdao.lib/src/openmdao/lib/drivers/caseiterdriver.py:184-201 | the wave starts between 0 and `max_servers` servers and stops early only on a stop request or an exhausted iterator |
| Driver.StartLoopRegisters | openmdao.lib/src/openmdao/lib/drivers/caseiterdriver.py:199-206 | the wave registers exactly servers 1..n, each empty, in use and with no egg, and touches no other row |
| Driver.StartLoopPulls | openmdao.lib/src/openmdao/lib/drivers/caseiterdriver.py:185-200 | each server start is preceded by at most one pull into `todo`, exactly one when no retry is pending; the pulled cases are a prefix of the iterator in order; the iterator is marked exhausted only when it ran dry with `rerun` empty |
| Driver.Start | openmdao.lib/src/openmdao/lib/drivers/caseiterdriver.py:175-179 | no server capacity is an error raised before anything is pulled or started; otherwise at most `max_servers` servers start |
| Driver.Handle | openmdao.lib/src/openmdao/lib/drivers/caseiterdriver.py:242-267 | a message from any worker in use drives that worker one step, as the corrected driver does, and a start-up failure retires the server as the start loop's check does; it never adds or removes a worker |
| Driver.Dispatch | openmdao.lib/src/openmdao/lib/drivers/caseiterdriver.py:241-267 | the dispatch loop ends normally only once no worker is in use, and runs out of replies only while one still is |
| Driver.HandleOwed | openmdao.lib/src/openmdao/lib/drivers/caseiterdriver.py:242-267 | a message can only come from a worker owed a reply; it never adds or removes a worker, and no worker becomes owed a reply that was not owed one or the sender |
| Driver.DispatchOwed | openmdao.lib/src/openmdao/lib/drivers/caseiterdriver.py:242-267 | the loop in which messages come only from owed workers ends normally only once no worker is in use |
| Driver.StalledHangs | openmdao.lib/src/openmdao/lib/drivers/caseiterdriver.py:242-267 | when workers are in use but none is owed a reply, nothing that arrives changes anything, and the loop never ends |
| Driver.HandleFixedAgrees | openmdao.lib/src/openmdao/lib/drivers/caseiterdriver.py:242-267 | in the corrected driver, with every busy worker owed a reply, a message is handled as `Handle` does and every busy worker stays owed a reply |
| Driver.DispatchFixedAgrees | openmdao.lib/src/openmdao/lib/drivers/caseiterdriver.py:242-267 | the corrected loop is `Dispatch`, so every run theorem holds of the corrected driver |
| Driver.StepStalls | openmdao.lib/src/openmdao/lib/drivers/caseiterdriver.py:467-475 | as written, a step that keeps its worker in use but queues nothing leaves it owed no reply, and the loop never ends when no other busy worker is owed one |
| Driver.InputFailureStalls | openmdao.lib/src/openmdao/lib/drivers/caseiterdriver.py:429-438 | as written, a remote worker whose inputs cannot be set goes to `error`, stays in use and is owed no reply, so the loop can hang |
| Driver.QuietCompleteStalls | openmdao.lib/src/openmdao/lib/drivers/caseiterdriver.py:379-390 | as written, a remote worker that completes a case cleanly with `reload_model` off becomes `ready`, stays in use and is owed no reply, so the loop can hang |
| Driver.Finish | openmdao.lib/src/openmdao/lib/drivers/caseiterdriver.py:102-106 | cleanup always runs; the run ends in `RunStopped` exactly when a stop was requested; the record is kept |
| Driver.ResumeConcurrent | openmdao.lib/src/openmdao/lib/drivers/caseiterdriver.py:77-106 | resuming a finished run raises "Run already complete"; no server capacity raises the `_start` error |
| Driver.Pull | openmdao.lib/src/openmdao/lib/drivers/caseiterdriver.py:114-119 | `step` moves the iterator's next case to the back of `todo`, and leaves everything as it is when only retries are pending |
| Driver.ResetLocal | openmdao.lib/src/openmdao/lib/drivers/caseiterdriver.py:121-122 | the in-process worker restarts empty with an empty slot; no other row changes |
| Driver.Step | openmdao.lib/src/openmdao/lib/drivers/caseiterdriver.py:108-124 | `StopIteration` escapes only when the iterator and `rerun` are both empty, and then `_iter` is `None` |
| Driver.ResumeSequential | openmdao.lib/src/openmdao/lib/drivers/caseiterdriver.py:77-98 | resuming a finished run raises "Run already complete" |
| Runs.DispatchKeeps | openmdao.lib/src/openmdao/lib/drivers/caseiterdriver.py:241-267 | the dispatch loop keeps the run invariant and the pool, and only appends cases within their retry limit to the record |
| Runs.DispatchSettles | openmdao.lib/src/openmdao/lib/drivers/caseiterdriver.py:241-267 | without start-up failures, once dispatch ends with nothing in use, nothing is left to run |
| Runs.StartKeeps | openmdao.lib/src/openmdao/lib/drivers/caseiterdriver.py:166-211 | the start-up wave establishes the run invariant and conserves the pool, and it records nothing |
| Runs.StartMoves | openmdao.lib/src/openmdao/lib/drivers/caseiterdriver.py:185-200 | the wave only moves cases from the iterator to `todo` |
| Runs.FinishedPool | openmdao.lib/src/openmdao/lib/drivers/caseiterdriver.py:241-243 | when no worker is in use and nothing is left, every case of the pool has been recorded |
| Runs.ConcurrentRunRecordsAtMostOnce | openmdao.lib/src/openmdao/lib/drivers/caseiterdriver.py:77-106 | a concurrent run only appends to the record, records each of its cases at most once, and records nothing else; every recorded case is within its retry limit |
| Runs.ConcurrentRunRecordsEveryCase | openmdao.lib/src/openmdao/lib/drivers/caseiterdriver.py:77-106 | a concurrent run without start-up failures that completes has recorded each of its cases exactly once |
| Runs.ExecuteConcurrentRecordsEveryCase | openmdao.lib/src/openmdao/lib/drivers/caseiterdriver.py:72-75 | `execute` on the concurrent path, without start-up failures and when it completes, records exactly the cases it was given |
| Runs.StartupFailureDropsCases | openmdao.lib/src/openmdao/lib/drivers/caseiterdriver.py:213-225 | for any cases and any earlier record, a run whose only server fails to start, with the failure handled by the start loop (on win32, or when it arrives within the 0.1 s poll), completes normally, records nothing, and leaves the iterator after the pulled case, which is lost |
| Runs.EggSentOncePerRun | openmdao.lib/src/openmdao/lib/drivers/caseiterdriver.py:497-504 | across a whole concurrent run the egg is sent to each server at most once |
| Runs.LocalTickKeeps | openmdao.lib/src/openmdao/lib/drivers/caseiterdriver.py:123-124 | a stepping call keeps the slot, retry and exhaustion invariants and the pool, and records only bounded cases |
| Runs.StepKeeps | openmdao.lib/src/openmdao/lib/drivers/caseiterdriver.py:108-124 | `step` conserves the pool and the sequential invariant |
| Runs.SeqLoopEnds | openmdao.lib/src/openmdao/lib/drivers/caseiterdriver.py:92-98 | the sequential loop ends only on an exhausted iterator or a stop request |
| Runs.SequentialRunRecordsAtMostOnce | openmdao.lib/src/openmdao/lib/drivers/caseiterdriver.py:77-106 | a sequential run records each of its cases at most once and nothing else |
| Runs.SequentialRunRecordsEveryCase | openmdao.lib/src/openmdao/lib/drivers/caseiterdriver.py:77-106 | a sequential run that completes has recorded each of its cases exactly once |
| Runs.ModesAgree | openmdao.lib/src/openmdao/lib/drivers/caseiterdriver.py:89-101 | when both complete and no server fails to start, the concurrent and the sequential run record the same cases |
| Runs.StepPullsAtMostOne | openmdao.lib/src/openmdao/lib/drivers/caseiterdriver.py:108-124 | one `step` takes at most the next case from the iterator |
| Repo.PermissionBits | scripts/repo.py:152-195 | the permission string has exactly nine characters |
| Repo.PermissionBitsAt | scripts/repo.py:152-195 | character i is the letter of bit i in user/group/other times r/w/x order when that bit is set and `-` otherwise |
| Repo.PermissionBitsRoundTrip | scripts/repo.py:152-195 | the string is well formed and reading it back gives exactly the nine permission bits of the mode |
| Repo.ParseBitsRoundTrip | scripts/repo.py:152-195 | every well-formed nine-character string is the permission string of the mode it denotes |
| Repo.Fixup | scripts/repo.py:128-134 | the fixed mode is the mode with the user bits copied into the group bits |
| Repo.FixupOnlyAdds | scripts/repo.py:128-134 | the fix only adds bits |
| Repo.FixupGrantsGroup | scripts/repo.py:128-134 | each user permission is granted to the group as well |
| Repo.FixupOnlyGroup | scripts/repo.py:128-134 | bits outside the group triple are unchanged, and a group bit is added only when the user has it |
| Repo.FixupIdempotent | scripts/repo.py:128-134 | fixing twice is fixing once |
| Repo.FixEntry | scripts/repo.py:136-146 | `chmod` is attempted, with the fixed mode, exactly when the fix changes the mode; verbose mode prints one line per entry, otherwise only changed entries are printed, in the formats of the script |
| Repo.FixEntryOnce | scripts/repo.py:128-146 | a fixed entry needs no second `chmod` |
| Repo.DirLinesAsWritten | scripts/repo.py:115-124 | the verbose directory lines as written: the first directory is cut by the root's length, and once the first directory has entries, the second is cut by the length of its last joined entry |
| Repo.DirLines | scripts/repo.py:115-119 | the intended directory lines: every directory below the root is printed relative to the root, so the root followed by the line is the directory |
| Repo.DirLinesAsWrittenCutsWrongPrefix | scripts/repo.py:115-124 | for a root `pkg` with one sub-directory `sub`, the intended lines are the empty line and `/sub`, but the code prints two empty lines |
| Repo.Lock | scripts/repo.py:79-87 | locking succeeds, with the caller as owner, only when there is no lock and it can be created; otherwise it exits 1 and the lock is unchanged |
| Repo.Unlock | scripts/repo.py:89-100 | unlocking succeeds only when the lock exists, belongs to the caller or is forced, and can be removed; otherwise it exits 1 and the lock is unchanged |
| Repo.LockUnlockRoundTrip | scripts/repo.py:79-100 | a held lock keeps out other users unless forced; its owner can release it, after which anyone can lock again |
| Repo.WalkFindsDeepest | scripts/repo.py:217-225 | the walk returns the deepest visited ancestor-or-self holding `.bzr`, and nothing exactly when none does |
| Repo.FindBzrFindsDeepest | scripts/repo.py:211-225 | `find_bzr` starts at the working directory for the empty path, returns nothing for a missing start, and otherwise returns the deepest root on the walk |
| Repo.Candidates | scripts/repo.py:199-205 | the three places tried, first the path itself, which an absolute path replaces in the other two |
| Repo.FindRepository | scripts/repo.py:197-209 | the first candidate that has a root wins, and nothing is found exactly when none has one |
| Repo.FindRepositoryFindsRoot | scripts/repo.py:197-225 | the root found holds `.bzr` and lies on the walk from one of the candidates |
| Decorators.DelegateName | openmdao.util/src/openmdao/util/decorators.py:79-88 | a given non-empty name is used; otherwise the name is `_` followed by the lower-cased class name, which makes it private |
| Decorators.Protected | openmdao.util/src/openmdao/util/decorators.py:71-75 | the names taken up front are the class's public members not listed in `_do_not_promote` |
| Decorators.Promote | openmdao.util/src/openmdao/util/decorators.py:92-98 | forwarders are installed only for public, untaken methods of the delegate, each name once, all to this delegate, and every public method name becomes taken |
| Decorators.AddFrom | openmdao.util/src/openmdao/util/decorators.py:78-99 | the result is a `TypeError` exactly when some delegate is not a class; otherwise the delegate list holds one `(name, class)` pair per delegate, in order; each name is promoted once; only public untaken names are promoted; every public delegate method is reachable; the first delegate with a name wins |
| Decorators.AddDelegate | openmdao.util/src/openmdao/util/decorators.py:65-101 | a delegate that is not a class raises the `TypeError` text; otherwise the delegate list holds one `(name, class)` pair per delegate, and no promoted name is private or one of the class's protected members |
| Decorators.AddDelegateComplete | openmdao.util/src/openmdao/util/decorators.py:78-98 | every public method of a delegate is either a protected member of the class or forwarded exactly once, to the first delegate that has it |
| Decorators.InitOrder | openmdao.util/src/openmdao/util/decorators.py:45-99 | every construction made by the final `__init__` is of one of the `n` delegates, and it ends by constructing all of them once, in order |
| Decorators.InitCount | openmdao.util/src/openmdao/util/decorators.py:45-99 | because `__init__` is re-wrapped once per delegate, each new object constructs the delegate at position j of n exactly n − j times |
| Decorators.ForwarderBody | openmdao.util/src/openmdao/util/decorators.py:26-29 | the body is a call `return self.<delegate>.<method>(` … `)` |
| Decorators.ForwarderPassesArgs | openmdao.util/src/openmdao/util/decorators.py:26-29 | the arguments of that call, split at commas, are exactly the method's arguments after `self`; a method taking only `self` forwards a call with no arguments |
| Decorators.OnCondition | openmdao.util/src/openmdao/util/decorators.py:104-113 | for every false value of the condition (`None`, `False`, `0`, `''`, `[]`) the function is returned unchanged; for every other value the decorator built from the arguments is applied to it |
| Decorators.TruthyIffNotFalse | openmdao.util/src/openmdao/util/decorators.py:109 | Python's truth test of a value fails exactly on the listed false values |

## Left out

- Threads, the reply queue, its timeouts and the server lock. Reply arrival is a
  sequence of events, and a run that outlives its events is `Pending`. A hang
  therefore shows as a run that stays `Pending` whatever events follow.
- `_service_loop`, `RAM.max_servers`, `RAM.allocate`/`release`, credentials and
  `filexfer`. These are foreign services. `max_servers` is a parameter, and an
  allocation failure is the `StartFailed` event.
- The shut-down handshake at the end of `_start` (lines 269-283). It exchanges
  queue messages only and never touches cases.
- The win32 start order. The model starts every server of the wave and then
  dispatches replies. On other platforms the code handles replies between two
  server starts; that path is not modelled.
- Egg creation in `setup` (`save_to_egg`, the `parent.driver` swap). The egg is an
  abstract `EggId`.
- Egg identity: the code compares the cached egg with `is not`; the model compares
  values.
- The egg cache of a server lives in `_server_info`, which `_cleanup` forgets, so
  the model's cache and transfer log are per run.
- Removing the egg file in `_cleanup`. This is file I/O.
- `_model_set`, `_model_get`, `_model_execute`, `_model_status`, `get_events` and
  the container behind them. Their results are the `Outcome` oracle.
- `_load_model` never raises in the code. Whether a load fails is therefore an
  oracle answer.
- The error-path case where no recorder is configured. `recorded` is the sequence
  of `record` calls made with a recorder set.
- The pathname prefix `raise_exception` adds to messages, and the resources
  suffix of the no-server message (line 178): `Driver.NoServers` is the text
  without it.
- The "Run stopped" text.
- Scheduler.ServerReady: the defensive branch for an unknown state (lines 404-408)
  is not modelled. The four-state datatype makes it unreachable.
- Scheduler.ServerReady: the step runs the corrected `_run_case`. As written, a
  failed event set raises `UnboundLocalError` out of the step (see Findings), so
  its claim that only an empty `complete` slot fails holds of the corrected code.
  Every theorem in `Runs` is about the corrected step.
- Scheduler.ReadyTurn: it runs the corrected `_run_case`, so a failed event set
  moves the worker to `error` instead of raising `UnboundLocalError`. The code as
  written is `Scheduler.RunCaseAsWritten`.
- Driver.Handle: it takes a message from any worker in use, which is the
  corrected driver. As written, a worker whose step queued nothing never sends
  another message, and the run hangs (see Findings). The code as written is
  `Driver.DispatchOwed` with `requeue` false. The run theorems in `Runs` are about
  the corrected driver.
- A reload failure in the `complete` branch, which the code swallows (lines 391-393).
  The worker then stays `complete` with an empty slot, and its next step raises
  `AttributeError` on `None`. The model follows the code: `CompleteTurn` returns that
  error, and the run fails. Conservation and the record theorems hold for runs
  that do not fail.
- A server that fails to start while its pulled case sits in `todo`, with the
  failure seen by the start loop (on win32, or when the failure arrives within
  the 0.1 s poll of line 217). This case is NOT recorded when no other server
  takes it: the run completes silently without it
  (`Runs.StartupFailureDropsCases`). For this reason
  `Runs.ConcurrentRunRecordsEveryCase` assumes no start-up failures.
- Runs.ConcurrentRunRecordsEveryCase: stated only for runs without start-up
  failures, because the code as written drops cases when a server fails to start.
- Runs.ExecuteConcurrentRecordsEveryCase: stated only for runs without start-up
  failures, for the same reason. It rests on `Runs.ConcurrentRunRecordsEveryCase`.
- Runs.ModesAgree: stated only for concurrent runs without start-up failures. A
  failed start can drop a case from the concurrent run, while the sequential run
  records it.
- Driver.Handle: its `StartFailed` branch is the `self._servers[name] is None`
  check of the start loop (lines 219-223 and 232-234). The main loop at 242-267
  has no such check. On platforms other than win32, a failure message that misses
  the 0.1 s poll reaches that loop, and `_server_ready` runs on the unallocated
  server. With work left, its `_EMPTY` branch calls `_load_model`, which raises
  `KeyError` at line 494, because `_queues` gets an entry only once a server is
  allocated (line 467). The model retires the server in both loops.
- `print_timing`: it depends on a clock.
- `init_wrapper` and the generated `__init__` text. What the final `__init__`
  constructs, and how often, is `InitOrder`. The `_delegates_` dictionary and the
  instance attributes end up bound to the last construction of each delegate.
- `FunctionMaker`, `getargspec` and `getmembers`. A delegate is the list of its
  method names, in the order `getmembers` returns them.
- Signatures and default values of forwarders.
- `str.lower`: only ASCII letters are lower-cased.
- Decorators.OnCondition: the condition is `None`, a bool, an int, a string, a
  list, or a plain object. Floats, tuples, dicts and classes that define
  `__nonzero__` or `__len__` are not modelled.
- Decorators.AddDelegate: the class's own names listed in `_do_not_promote` are not
  taken up front, so a delegate method may replace them. The model states this
  through `Protected`.
- The `TypeError` on a non-class delegate is raised after earlier delegates have
  already been promoted onto the class. The model returns only the error.
- `repo.py` `main`, `do_check` and `do_set`: argument parsing, the shell and the
  environment.
- `os.walk`, `os.stat`, `os.chmod`, `pwd`, `sys.exit`.
- `fix` is modelled per directory entry (`FixEntry`).
- The two lines printed when `chmod` fails are not modelled.
- `os.path.join` is modelled for relative entry names only (`JoinName`).
- `check_lockfile` failing to stat an existing lockfile (lines 233-235).
- The lockfile's owner and time formatting come from `pwd` and `time.asctime`.
  The model takes them as strings.
- Repo.Lock: when the exclusive create fails because someone created the file in
  the meantime, the model keeps the lock as it found it.
- Paths are component sequences. `os.path.normpath`, trailing slashes, `.`/`..`
  and symbolic links are not modelled, and `dirname` drops exactly one component.
- Modes are 16-bit, which holds every `st_mode` bit.

## Findings

| source | as written | input that shows it | evidently intended | confidence | as-written member | corrected member |
|---|---|---|---|---|---|---|
| scripts/repo.py:119-124 | in verbose mode `do_fix` prints each directory as `dirpath[len(path):]`, but line 124 rebinds `path` to the last entry joined, so from the second directory on the wrong prefix is cut off; only output is affected | a root `pkg` holding only the directory `sub` prints two empty lines | each directory is printed relative to the root (`/sub`) | high, not executed | Repo.DirLinesAsWrittenCutsWrongPrefix | Repo.DirLines |
| openmdao.lib/src/openmdao/lib/drivers/caseiterdriver.py:429-438 | when setting an input fails, `_run_case` leaves the worker in `_ERROR` and in use, but nothing is put on its request queue (`_model_set` is synchronous), so its service thread never replies, `_busy()` stays true and the loop at 242-267 waits forever | one server, one case, and `_model_set` of an input raises | the errored worker is stepped again, reloads, and the case is retried or recorded, so the run ends | high, not executed | Driver.InputFailureStalls | Driver.DispatchFixedAgrees |
| openmdao.lib/src/openmdao/lib/drivers/caseiterdriver.py:379-390 | with `reload_model` false, a case that completes without any message leaves the worker `_READY` and in use with nothing queued, so the loop at 242-267 waits forever | `reload_model` false, one server, one case whose run and output reads succeed | the ready worker is stepped again and takes the next case or retires | high, not executed | Driver.QuietCompleteStalls | Driver.DispatchFixedAgrees |
| openmdao.lib/src/openmdao/lib/drivers/caseiterdriver.py:422-428 | the handler for a failed event set formats its message with `name`, which is only bound by the input loop below, so `UnboundLocalError` escapes instead of `_ServerError` | a fresh case with `max_retries` 1 on a worker where `_model_set` of the first event raises | raise `_ServerError` naming the event, so the case is retried or recorded like a failed input | high, not executed | Scheduler.EventFailureAborts | Scheduler.EventFailureRetried |

=== FILE: basics.dfy ===
/** Small failure-compatible wrappers shared by every module of the model. */
module Basics {

  /** A value that may be absent; Python's `None` is `None`. */
  datatype Option<+T> = None | Some(value: T)

  /** The outcome of an operation that may raise: `Err` carries the exception text. */
  datatype Result<+T> = Ok(value: T) | Err(msg: string)

  /** Python truthiness of an optional string: `None` and `''` are both false. */
  predicate Falsy(m: Option<string>) {
    m.None? || m.value == ""
  }
}

=== FILE: cases.dfy ===
/** A case: one evaluation request of the case-iterator driver. */
module Cases {
  import opened Basics

  /** The identity of a case object.  Cases are mutated in place by the
      driver, so identity, not value, is what moves between queues. */
  type CaseId = nat

  /** An input assignment `(name, index, value)`. */
  datatype Assign = Assign(name: string, index: Option<int>, value: int)

  /** A requested output `(name, index)`; `value` is filled in after a run. */
  datatype Output = Output(name: string, index: Option<int>, value: Option<int>)

  /** A case.  `maxRetries == 0` stands for a falsy `max_retries`
      (zero or unset), which the driver replaces by its own default. */
  datatype Case = Case(
    id: CaseId,
    inputs: seq<Assign>,
    outputs: seq<Output>,
    maxRetries: nat,
    retries: nat,
    msg: Option<string>)

  /** The identities of a sequence of cases, with multiplicity. */
  function Ids(cs: seq<Case>): (m: multiset<CaseId>)
    ensures |m| == |cs|
    ensures forall c :: c in cs ==> c.id in m
  {
    if cs == [] then multiset{} else multiset{cs[0].id} + Ids(cs[1..])
  }

  lemma {:induction false} IdsAppend(a: seq<Case>, b: seq<Case>)
    ensures Ids(a + b) == Ids(a) + Ids(b)
    decreases |a|
  {
    if a == [] {
      assert a + b == b;
    } else {
      assert (a + b)[1..] == a[1..] + b;
      IdsAppend(a[1..], b);
    }
  }

  /** Appending one case adds exactly its identity. */
  lemma IdsSnoc(a: seq<Case>, c: Case)
    ensures Ids(a + [c]) == Ids(a) + multiset{c.id}
  {
    IdsAppend(a, [c]);
    assert [c][1..] == [];
  }

  /** Splitting off the first case removes exactly its identity. */
  lemma IdsCons(a: seq<Case>)
    requires a != []
    ensures Ids(a) == multiset{a[0].id} + Ids(a[1..])
  {
  }

  /** The identities of a sequence are those of its two halves, wherever it is cut. */
  lemma IdsSplit(a: seq<Case>, k: nat)
    requires k <= |a|
    ensures Ids(a) == Ids(a[..k]) + Ids(a[k..])
  {
    assert a == a[..k] + a[k..];
    IdsAppend(a[..k], a[k..]);
  }
}

=== FILE: conservation.dfy ===
/**
  Case conservation.  A case object moves between the source, `todo`,
  `rerun`, the slot of a worker that is running it and the recorded log
  only by popping the front of one queue and appending it to another;
  nothing is ever copied.  The slot of a worker in `Error` may still refer
  to a case that was already requeued or recorded; such a stale reference
  is not counted, because the `Error` step only clears it.
*/
module Conservation {
  import opened Basics
  import opened Cases
  import opened Scheduler

  /** The case a worker holds as its own: only a worker waiting for its
      run (`Complete`) owns the case in its slot. */
  function Live(rec: WorkerRec): multiset<CaseId> {
    if rec.state == Complete && rec.current.Some? then multiset{rec.current.value.id} else multiset{}
  }

  /** The cases owned by all workers of a table. */
  ghost function LiveIds(t: map<Worker, WorkerRec>): multiset<CaseId>
    decreases |t|
  {
    if |t| == 0 then multiset{}
    else
      var w :| w in t;
      assert (t - {w}).Keys == t.Keys - {w};
      Live(t[w]) + LiveIds(t - {w})
  }

  /** Every case identity of a scheduler state, wherever it is. */
  ghost function Pool(s: Sched): multiset<CaseId> {
    Ids(s.source) + Ids(s.todo) + Ids(s.rerun) + LiveIds(s.table) + Ids(s.recorded)
  }

  lemma RemoveCommutes(t: map<Worker, WorkerRec>, v: Worker, w: Worker)
    ensures t - {v} - {w} == t - {w} - {v}
  {
  }

  lemma RemoveAfterPut(t: map<Worker, WorkerRec>, w: Worker, rec: WorkerRec)
    ensures t[w := rec] - {w} == t - {w}
    ensures w !in t ==> t - {w} == t
  {
  }

  lemma SwapHeads(a: multiset<CaseId>, lv: multiset<CaseId>, lw: multiset<CaseId>,
                  atv: multiset<CaseId>, atw: multiset<CaseId>, rest: multiset<CaseId>)
    requires a == lv + atv && atv == lw + rest && atw == lv + rest
    ensures a == lw + atw
  {
  }

  lemma Cancel(a: multiset<CaseId>, b: multiset<CaseId>, x: multiset<CaseId>)
    requires a + x == b + x
    ensures a == b
  {
    assert forall i :: a[i] == (a + x)[i] - x[i];
  }

  /** Adding `x` to any one of the five places adds `x` to the pool. */
  lemma Grow(S: multiset<CaseId>, T: multiset<CaseId>, R: multiset<CaseId>,
             L: multiset<CaseId>, D: multiset<CaseId>, x: multiset<CaseId>)
    ensures S + T + R + (L + x) + D == S + T + R + L + D + x
    ensures S + T + (R + x) + L + D == S + T + R + L + D + x
    ensures S + T + R + L + (D + x) == S + T + R + L + D + x
  {
  }

  lemma {:induction false} LiveIdsPick(t: map<Worker, WorkerRec>, w: Worker)
    requires w in t
    ensures LiveIds(t) == Live(t[w]) + LiveIds(t - {w})
    decreases |t|
  {
    var v :| v in t && LiveIds(t) == Live(t[v]) + LiveIds(t - {v});
    if v != w {
      var tv := t - {v};
      var tw := t - {w};
      assert tv.Keys == t.Keys - {v} && tw.Keys == t.Keys - {w};
      LiveIdsPick(tv, w);
      LiveIdsPick(tw, v);
      RemoveCommutes(t, v, w);
      assert tv[w] == t[w] && tw[v] == t[v];
      SwapHeads(LiveIds(t), Live(t[v]), Live(t[w]), LiveIds(tv), LiveIds(tw), LiveIds(tv - {w}));
    }
  }

  /** Replacing (or adding) one row changes the owned cases by exactly the
      difference between the old and the new row. */
  lemma LiveIdsPut(t: map<Worker, WorkerRec>, w: Worker, rec: WorkerRec)
    ensures LiveIds(t[w := rec]) + (if w in t then Live(t[w]) else multiset{}) == LiveIds(t) + Live(rec)
  {
    LiveIdsPick(t[w := rec], w);
    RemoveAfterPut(t, w, rec);
    if w in t {
      LiveIdsPick(t, w);
    }
  }

  /** A row whose ownership does not change leaves the owned cases alone. */
  lemma LiveIdsSame(t: map<Worker, WorkerRec>, w: Worker, rec: WorkerRec)
    requires w in t && Live(rec) == Live(t[w])
    ensures LiveIds(t[w := rec]) == LiveIds(t)
  {
    LiveIdsPut(t, w, rec);
    Cancel(LiveIds(t[w := rec]), LiveIds(t), Live(rec));
  }

  lemma {:induction false} LiveIdsNone(t: map<Worker, WorkerRec>)
    requires forall w :: w in t ==> t[w].state != Complete
    ensures LiveIds(t) == multiset{}
    decreases |t|
  {
    if |t| != 0 {
      var v :| v in t && LiveIds(t) == Live(t[v]) + LiveIds(t - {v});
      assert (t - {v}).Keys == t.Keys - {v};
      assert forall u :: u in t - {v} ==> (t - {v})[u] == t[u];
      assert Live(t[v]) == multiset{};
      LiveIdsNone(t - {v});
    }
  }

  /** A load changes neither the queues nor which cases workers own. */
  lemma LoadConserves(s: Sched, w: Worker, ok: bool)
    requires w in s.table
    ensures LoadModel(s, w, ok).Some? ==> Pool(LoadModel(s, w, ok).value) == Pool(s)
  {
    if ok && w.Remote? && s.table[w].egg != Some(s.cfg.egg) {
      LiveIdsSame(s.table, w, s.table[w].(egg := Some(s.cfg.egg)));
    }
  }

  lemma SetStateConserves(s: Sched, w: Worker, st: WState)
    requires w in s.table
    requires (s.table[w].state != Complete && st != Complete) || s.table[w].current.None?
    ensures Pool(SetState(s, w, st)) == Pool(s)
  {
    LiveIdsSame(s.table, w, s.table[w].(state := st));
  }

  /** `_run_case` moves the case it is given into the worker's slot, the
      back of `rerun` or the recorded log: exactly one of the three. */
  lemma RunCaseConserves(s: Sched, c: Case, w: Worker, rerun: bool, setting: SetOutcome)
    requires w in s.table && s.table[w].state != Complete
    ensures Pool(RunCase(s, c, w, rerun, setting)) == Pool(s) + multiset{c.id}
  {
    var r := RunCase(s, c, w, rerun, setting);
    if setting.SetOk? {
      RunCaseHeld(s, c, w, rerun, setting);
    } else if r.rerun != s.rerun {
      RunCaseRequeued(s, c, w, rerun, setting);
    } else {
      RunCaseRecorded(s, c, w, rerun, setting);
    }
  }

  /** A case that runs is held by its worker. */
  lemma RunCaseHeld(s: Sched, c: Case, w: Worker, rerun: bool, setting: SetOutcome)
    requires w in s.table && s.table[w].state != Complete && setting.SetOk?
    ensures Pool(RunCase(s, c, w, rerun, setting)) == Pool(s) + multiset{c.id}
  {
    var r := RunCase(s, c, w, rerun, setting);
    LiveIdsPut(s.table, w, r.table[w]);
    assert r.table == s.table[w := r.table[w]];
    assert Live(s.table[w]) == multiset{};
    assert Live(r.table[w]) == multiset{c.id};
    var S, T, R, L, D := Ids(s.source), Ids(s.todo), Ids(s.rerun), LiveIds(s.table), Ids(s.recorded);
    assert LiveIds(r.table) == L + multiset{c.id};
    Grow(S, T, R, L, D, multiset{c.id});
  }

  /** A case whose set-up failed with retries left is owned by `rerun`. */
  lemma RunCaseRequeued(s: Sched, c: Case, w: Worker, rerun: bool, setting: SetOutcome)
    requires w in s.table && s.table[w].state != Complete && !setting.SetOk?
    requires RunCase(s, c, w, rerun, setting).rerun != s.rerun
    ensures Pool(RunCase(s, c, w, rerun, setting)) == Pool(s) + multiset{c.id}
  {
    var r := RunCase(s, c, w, rerun, setting);
    assert r.table == s.table[w := r.table[w]];
    LiveIdsSame(s.table, w, r.table[w]);
    IdsSnoc(s.rerun, r.table[w].current.value);
    var S, T, R, L, D := Ids(s.source), Ids(s.todo), Ids(s.rerun), LiveIds(s.table), Ids(s.recorded);
    Grow(S, T, R, L, D, multiset{c.id});
  }

  /** A case whose set-up failed for the last time is recorded. */
  lemma RunCaseRecorded(s: Sched, c: Case, w: Worker, rerun: bool, setting: SetOutcome)
    requires w in s.table && s.table[w].state != Complete && !setting.SetOk?
    requires RunCase(s, c, w, rerun, setting).rerun == s.rerun
    ensures Pool(RunCase(s, c, w, rerun, setting)) == Pool(s) + multiset{c.id}
  {
    var r := RunCase(s, c, w, rerun, setting);
    assert r.table == s.table[w := r.table[w]];
    LiveIdsSame(s.table, w, r.table[w]);
    IdsSnoc(s.recorded, r.table[w].current.value);
    var S, T, R, L, D := Ids(s.source), Ids(s.todo), Ids(s.rerun), LiveIds(s.table), Ids(s.recorded);
    Grow(S, T, R, L, D, multiset{c.id});
  }

  lemma EmptyTurnConserves(s: Sched, w: Worker, loadOk: bool)
    requires w in s.table && s.table[w].state == Empty
    ensures Pool(EmptyTurn(s, w, loadOk).next) == Pool(s)
  {
    if !(s.todo == [] && s.rerun == [] && s.exhausted) {
      LoadConserves(s, w, loadOk);
      match LoadModel(s, w, loadOk)
      case None => SetStateConserves(s, w, Error);
      case Some(s1) => SetStateConserves(s1, w, Ready);
    }
  }

  lemma PopTodo(s: Sched)
    requires s.todo != []
    ensures Pool(s.(todo := s.todo[1..])) + multiset{s.todo[0].id} == Pool(s)
  {
    IdsCons(s.todo);
  }

  lemma PopRerun(s: Sched)
    requires s.rerun != []
    ensures Pool(s.(rerun := s.rerun[1..])) + multiset{s.rerun[0].id} == Pool(s)
  {
    IdsCons(s.rerun);
  }

  lemma PopSource(s: Sched)
    requires s.source != []
    ensures Pool(s.(source := s.source[1..])) + multiset{s.source[0].id} == Pool(s)
  {
    IdsCons(s.source);
  }

  lemma ReadyTurnConserves(s: Sched, w: Worker, stepping: bool, setting: SetOutcome)
    requires w in s.table && s.table[w].state == Ready
    ensures Pool(ReadyTurn(s, w, stepping, setting).next) == Pool(s)
  {
    var t := ReadyTurn(s, w, stepping, setting);
    if s.stop {
    } else if s.todo != [] {
      var s' := s.(todo := s.todo[1..]);
      assert t.next == RunCase(s', s.todo[0], w, false, setting);
      RunCaseConserves(s', s.todo[0], w, false, setting);
      PopTodo(s);
    } else if s.rerun != [] {
      var s' := s.(rerun := s.rerun[1..]);
      assert t.next == RunCase(s', s.rerun[0], w, true, setting);
      RunCaseConserves(s', s.rerun[0], w, true, setting);
      PopRerun(s);
    } else if s.exhausted || stepping || s.source == [] {
    } else {
      var s' := s.(source := s.source[1..]);
      assert t.next == RunCase(s', s.source[0], w, false, setting);
      RunCaseConserves(s', s.source[0], w, false, setting);
      PopSource(s);
    }
  }

  /** Taking the case out of the slot and recording it keeps the pool. */
  lemma RecordConserves(s: Sched, w: Worker, d: Case)
    requires w in s.table && s.table[w].state == Complete && s.table[w].current.Some?
    requires d.id == s.table[w].current.value.id
    ensures Pool(s.(table := s.table[w := s.table[w].(current := None)], recorded := s.recorded + [d])) == Pool(s)
  {
    var s1 := s.(table := s.table[w := s.table[w].(current := None)], recorded := s.recorded + [d]);
    LiveIdsPut(s.table, w, s1.table[w]);
    assert Live(s.table[w]) == multiset{d.id} && Live(s1.table[w]) == multiset{};
    var L := LiveIds(s1.table);
    assert L + multiset{d.id} == LiveIds(s.table);
    IdsSnoc(s.recorded, d);
    Grow(Ids(s.source), Ids(s.todo), Ids(s.rerun), L, Ids(s.recorded), multiset{d.id});
  }

  lemma CompleteTurnConserves(s: Sched, w: Worker, o: Outcome)
    requires w in s.table && s.table[w].state == Complete
    ensures CompleteTurn(s, w, o).Ok? ==> Pool(CompleteTurn(s, w, o).value.next) == Pool(s)
  {
    match s.table[w].current
    case None =>
    case Some(c) =>
      var d := Completed(c, o, s.cfg.pathname);
      var s1 := s.(table := s.table[w := s.table[w].(current := None)], recorded := s.recorded + [d]);
      RecordConserves(s, w, d);
      if ReloadWanted(d.msg, s.cfg.reloadModel) {
        LoadConserves(s1, w, o.loadOk);
        match LoadModel(s1, w, o.loadOk)
        case None =>
        case Some(s2) => SetStateConserves(s2, w, Ready);
      } else {
        SetStateConserves(s1, w, Ready);
      }
  }

  lemma ErrorTurnConserves(s: Sched, w: Worker, loadOk: bool)
    requires w in s.table && s.table[w].state == Error
    ensures Pool(ErrorTurn(s, w, loadOk).next) == Pool(s)
  {
    var s1 := s.(table := s.table[w := s.table[w].(current := None)]);
    LiveIdsSame(s.table, w, s1.table[w]);
    LoadConserves(s1, w, loadOk);
    match LoadModel(s1, w, loadOk)
    case None =>
    case Some(s2) => SetStateConserves(s2, w, Ready);
  }

  /** Case conservation for one step of any worker: whatever the outcome,
      no case appears, disappears or is duplicated. */
  lemma {:induction false} TurnConserves(s: Sched, w: Worker, stepping: bool, o: Outcome)
    requires w in s.table
    ensures ServerReady(s, w, stepping, o).Ok? ==> Pool(ServerReady(s, w, stepping, o).value.next) == Pool(s)
  {
    match s.table[w].state
    case Empty => EmptyTurnConserves(s, w, o.loadOk);
    case Ready => ReadyTurnConserves(s, w, stepping, o.setting);
    case Complete => CompleteTurnConserves(s, w, o);
    case Error => ErrorTurnConserves(s, w, o.loadOk);
  }
}

=== FILE: decorators.dfy ===
/**
  The decision logic of the class decorators: which delegate methods
  `add_delegate` promotes onto a class, under which instance name, with
  which priority; the body text of a forwarding method; and `on_condition`.
  Classes and delegates are modelled by the names of their members.
*/
module Decorators {
  import opened Basics

  /** A class being decorated: its name, the names of all its members
      (inherited ones included) and its `_do_not_promote` list, if it has
      one. */
  datatype Klass = Klass(name: string, members: seq<string>, doNotPromote: Option<seq<string>>)

  /** An argument of `add_delegate`: a delegate, with the instance name of
      a `(name, delegate)` tuple if one was given; `isClass` is false when
      the delegate is not a class.  `methods` are its method names in the
      order `getmembers` lists them. */
  datatype Delegate = Delegate(name: Option<string>, isClass: bool, className: string, methods: seq<string>)

  /** A forwarding method installed on the class. */
  datatype Promotion = Promotion(member: string, delegateName: string)

  /** The outcome of the decorator: the `(name, class)` pairs of the
      delegate list the final wrapped `__init__` instantiates (each
      instance attribute of a new object holds one of them; `InitOrder`
      says how often each is constructed), and the forwarders installed,
      in order. */
  datatype Decorated = Decorated(instances: seq<(string, string)>, promoted: seq<Promotion>)

  /** ASCII `str.lower` on one character. */
  function LowerChar(c: char): (r: char)
    ensures 'A' <= c <= 'Z' ==> r as int == c as int + 32
    ensures !('A' <= c <= 'Z') ==> r == c
    ensures !('A' <= r <= 'Z')
  {
    if 'A' <= c <= 'Z' then (c as int + 32) as char else c
  }

  /** ASCII `str.lower`. */
  function Lower(s: string): (r: string)
    ensures |r| == |s|
    ensures forall i :: 0 <= i < |s| ==> r[i] == LowerChar(s[i])
  {
    if s == [] then [] else [LowerChar(s[0])] + Lower(s[1..])
  }

  /** A name that does not start with an underscore. */
  predicate Public(n: string) {
    !(|n| > 0 && n[0] == '_')
  }

  /** The instance name of a delegate: the given name, or, when it is
      missing or empty, an underscore followed by the lower-cased class
      name. */
  function DelegateName(d: Delegate): (r: string)
    ensures !Falsy(d.name) ==> r == d.name.value
    ensures Falsy(d.name) ==> |r| == |d.className| + 1 && r[0] == '_' && !Public(r)
    ensures Falsy(d.name) ==> forall i :: 0 <= i < |d.className| ==> r[i + 1] == LowerChar(d.className[i])
  {
    if Falsy(d.name) then "_" + Lower(d.className) else d.name.value
  }

  /** The names a delegate may not take over: the class's public members
      that are not listed in `_do_not_promote`. */
  function Protected(cls: Klass): (p: set<string>)
    ensures forall n :: n in p <==>
      n in cls.members && Public(n) && !(cls.doNotPromote.Some? && n in cls.doNotPromote.value)
  {
    var skip := if cls.doNotPromote.Some? then cls.doNotPromote.value else [];
    set n | n in cls.members && Public(n) && n !in skip
  }

  /** The names promoted by a list of forwarders. */
  function Names(ps: seq<Promotion>): set<string> {
    set i | 0 <= i < |ps| :: ps[i].member
  }

  /** No name is promoted twice. */
  predicate Distinct(ps: seq<Promotion>) {
    forall i, j :: 0 <= i < j < |ps| ==> ps[i].member != ps[j].member
  }

  /** The inner loop of `_add_delegate` over one delegate's methods:
      every public method whose name is not yet taken is forwarded to
      the delegate instance, and its name becomes taken. */
  function Promote(taken: set<string>, dn: string, methods: seq<string>): (r: (seq<Promotion>, set<string>))
    ensures forall i :: 0 <= i < |r.0| ==>
      r.0[i].delegateName == dn && Public(r.0[i].member) && r.0[i].member !in taken && r.0[i].member in methods
    ensures Distinct(r.0)
    ensures r.1 == taken + Names(r.0)
    ensures forall m :: m in methods && Public(m) ==> m in r.1
    decreases |methods|
  {
    if methods == [] then ([], taken)
    else
      var m := methods[0];
      if !Public(m) || m in taken then Promote(taken, dn, methods[1..])
      else
        var rest := Promote(taken + {m}, dn, methods[1..]);
        NamesCons(Promotion(m, dn), rest.0);
        ([Promotion(m, dn)] + rest.0, rest.1)
  }

  lemma NamesCons(p: Promotion, ps: seq<Promotion>)
    ensures Names([p] + ps) == {p.member} + Names(ps)
  {
    var all := [p] + ps;
    forall n | n in Names(all) ensures n in {p.member} + Names(ps) {
      var i :| 0 <= i < |all| && all[i].member == n;
      if i > 0 { assert ps[i - 1].member == n; }
    }
    forall n | n in Names(ps) ensures n in Names(all) {
      var i :| 0 <= i < |ps| && ps[i].member == n;
      assert all[i + 1].member == n;
    }
    assert all[0].member == p.member;
  }

  const NotAClass := " because delegate is not a class"

  function TypeErrorText(cls: Klass): string {
    "Can't add delegate to class " + cls.name + NotAClass
  }

  /** The position of the first delegate with a method named `m`, or
      the number of delegates when none has one. */
  function FirstWith(dels: seq<Delegate>, m: string): (k: nat)
    ensures k <= |dels|
    ensures k < |dels| ==> m in dels[k].methods
    ensures forall j :: 0 <= j < k ==> m !in dels[j].methods
    decreases |dels|
  {
    if dels == [] then 0
    else if m in dels[0].methods then 0
    else 1 + FirstWith(dels[1..], m)
  }

  /** Every forwarder calls the instance of the first delegate that has
      the method. */
  predicate FirstWins(dels: seq<Delegate>, ps: seq<Promotion>) {
    forall i :: 0 <= i < |ps| ==>
      FirstWith(dels, ps[i].member) < |dels| && ps[i].delegateName == DelegateName(dels[FirstWith(dels, ps[i].member)])
  }

  /** Every public method of a delegate whose name is not taken is
      forwarded. */
  predicate Complete(dels: seq<Delegate>, taken: set<string>, ps: seq<Promotion>) {
    forall j :: 0 <= j < |dels| ==>
      forall m :: m in dels[j].methods && Public(m) && m !in taken ==> m in Names(ps)
  }

  /** Only public names that were not taken are forwarded. */
  predicate Untaken(taken: set<string>, ps: seq<Promotion>) {
    forall i :: 0 <= i < |ps| ==> Public(ps[i].member) && ps[i].member !in taken
  }

  /** The delegate list, one `(name, class)` pair per delegate, in order. */
  predicate Instances(dels: seq<Delegate>, inst: seq<(string, string)>) {
    |inst| == |dels| && forall j :: 0 <= j < |dels| ==> inst[j] == (DelegateName(dels[j]), dels[j].className)
  }


  /** The outer loop of `_add_delegate` over the remaining delegates, with
      the names already taken. */
  function AddFrom(cls: Klass, dels: seq<Delegate>, taken: set<string>): (r: Result<Decorated>)
    ensures r.Err? <==> exists j :: 0 <= j < |dels| && !dels[j].isClass
    ensures r.Err? ==> r.msg == TypeErrorText(cls)
    ensures r.Ok? ==> Instances(dels, r.value.instances)
    ensures r.Ok? ==> Distinct(r.value.promoted) && Untaken(taken, r.value.promoted)
    ensures r.Ok? ==> Complete(dels, taken, r.value.promoted)
    ensures r.Ok? ==> FirstWins(dels, r.value.promoted)
    decreases |dels|
  {
    if dels == [] then Ok(Decorated([], []))
    else
      var d := dels[0];
      if !d.isClass then Err(TypeErrorText(cls))
      else
        var dn := DelegateName(d);
        var (ps, taken') := Promote(taken, dn, d.methods);
        match AddFrom(cls, dels[1..], taken')
        case Err(msg) => Err(msg)
        case Ok(rest) =>
          var out := Decorated([(dn, d.className)] + rest.instances, ps + rest.promoted);
          StepInstances(dels, rest.instances);
          StepDistinct(taken, dn, d.methods, rest.promoted);
          StepComplete(dels, taken, rest.promoted);
          StepFirstWins(dels, taken, rest.promoted);
          Ok(out)
  }

  lemma StepInstances(dels: seq<Delegate>, inst: seq<(string, string)>)
    requires dels != [] && Instances(dels[1..], inst)
    ensures Instances(dels, [(DelegateName(dels[0]), dels[0].className)] + inst)
  {
  }

  lemma StepDistinct(taken: set<string>, dn: string, methods: seq<string>, rest: seq<Promotion>)
    requires Distinct(rest) && Untaken(Promote(taken, dn, methods).1, rest)
    ensures Distinct(Promote(taken, dn, methods).0 + rest)
    ensures Untaken(taken, Promote(taken, dn, methods).0 + rest)
  {
    var ps := Promote(taken, dn, methods).0;
    var all := ps + rest;
    forall i, k | 0 <= i < k < |all| ensures all[i].member != all[k].member {
      if i < |ps| && k >= |ps| {
        assert all[i].member in Names(ps);
        assert all[k] == rest[k - |ps|];
      } else if i >= |ps| {
        assert all[i] == rest[i - |ps|] && all[k] == rest[k - |ps|];
      }
    }
    forall i | 0 <= i < |all| ensures Public(all[i].member) && all[i].member !in taken {
      if i >= |ps| { assert all[i] == rest[i - |ps|]; }
    }
  }

  lemma StepComplete(dels: seq<Delegate>, taken: set<string>, rest: seq<Promotion>)
    requires dels != []
    requires Complete(dels[1..], Promote(taken, DelegateName(dels[0]), dels[0].methods).1, rest)
    ensures Complete(dels, taken, Promote(taken, DelegateName(dels[0]), dels[0].methods).0 + rest)
  {
    var (ps, taken') := Promote(taken, DelegateName(dels[0]), dels[0].methods);
    var all := ps + rest;
    forall j, m | 0 <= j < |dels| && m in dels[j].methods && Public(m) && m !in taken
      ensures m in Names(all)
    {
      if m in taken' {
        assert m in Names(ps);
        var i :| 0 <= i < |ps| && ps[i].member == m;
        assert all[i].member == m;
      } else {
        assert j > 0 && dels[j] == dels[1..][j - 1];
        assert m in Names(rest);
        var i :| 0 <= i < |rest| && rest[i].member == m;
        assert all[i + |ps|].member == m;
      }
    }
  }

  lemma StepFirstWins(dels: seq<Delegate>, taken: set<string>, rest: seq<Promotion>)
    requires dels != []
    requires FirstWins(dels[1..], rest)
    requires Untaken(Promote(taken, DelegateName(dels[0]), dels[0].methods).1, rest)
    ensures FirstWins(dels, Promote(taken, DelegateName(dels[0]), dels[0].methods).0 + rest)
  {
    var (ps, taken') := Promote(taken, DelegateName(dels[0]), dels[0].methods);
    var all := ps + rest;
    forall i | 0 <= i < |all|
      ensures FirstWith(dels, all[i].member) < |dels|
      ensures all[i].delegateName == DelegateName(dels[FirstWith(dels, all[i].member)])
    {
      if i < |ps| {
        assert all[i] == ps[i];
        assert FirstWith(dels, ps[i].member) == 0;
      } else {
        var p := rest[i - |ps|];
        assert all[i] == p;
        assert p.member !in dels[0].methods;
        assert FirstWith(dels, p.member) == 1 + FirstWith(dels[1..], p.member);
      }
    }
  }

  /** `_add_delegate`: a decorated class gets one forwarder per public
      delegate method whose name it does not already use publicly, the
      earliest delegate winning; a delegate that is not a class is a
      `TypeError`. */
  function AddDelegate(cls: Klass, dels: seq<Delegate>): (r: Result<Decorated>)
    ensures r.Err? <==> exists j :: 0 <= j < |dels| && !dels[j].isClass
    ensures r.Err? ==> r.msg == TypeErrorText(cls)
    ensures r.Ok? ==> Instances(dels, r.value.instances)
    ensures r.Ok? ==> forall i :: 0 <= i < |r.value.promoted| ==>
      Public(r.value.promoted[i].member) && r.value.promoted[i].member !in Protected(cls)
  {
    AddFrom(cls, dels, Protected(cls))
  }

  /** Every public delegate method is reachable on the decorated class:
      the class either keeps its own public member of that name or gets
      exactly one forwarder, and that forwarder calls the instance of the
      first delegate that has the method. */
  lemma AddDelegateComplete(cls: Klass, dels: seq<Delegate>, j: nat, m: string)
    requires j < |dels| && m in dels[j].methods && Public(m)
    ensures var r := AddDelegate(cls, dels);
      r.Ok? ==>
        || m in Protected(cls)
        || (exists i :: 0 <= i < |r.value.promoted| && r.value.promoted[i].member == m
              && r.value.promoted[i].delegateName == DelegateName(dels[FirstWith(dels, m)])
              && forall i' :: 0 <= i' < |r.value.promoted| && i' != i ==> r.value.promoted[i'].member != m)
  {
    var r := AddDelegate(cls, dels);
    if r.Ok? && m !in Protected(cls) {
      assert m in Names(r.value.promoted);
      var i :| 0 <= i < |r.value.promoted| && r.value.promoted[i].member == m;
      assert Distinct(r.value.promoted);
      assert FirstWins(dels, r.value.promoted);
    }
  }

  /** `[0, 1, ..., n - 1]` */
  function Range(n: nat): (r: seq<nat>)
    ensures |r| == n && forall i :: 0 <= i < n ==> r[i] == i
  {
    if n == 0 then [] else Range(n - 1) + [n - 1]
  }

  /** The delegate constructions of the `__init__` the class ends with, as
      positions in the delegate list, in the order they happen.
      `init_wrapper` is applied inside the loop over the delegates, each
      time around the `__init__` of the previous round and with the list
      built so far; so the final `__init__` first runs the wrappers of the
      earlier rounds and then constructs the whole list of `n` delegates. */
  function InitOrder(n: nat): (r: seq<nat>)
    ensures forall i :: 0 <= i < |r| ==> r[i] < n
    ensures |r| >= n && r[|r| - n..] == Range(n)
  {
    if n == 0 then [] else InitOrder(n - 1) + Range(n)
  }

  lemma {:induction false} RangeCount(n: nat, j: nat)
    ensures multiset(Range(n))[j] == if j < n then 1 else 0
  {
    if n > 0 {
      var last: nat := n - 1;
      RangeCount(last, j);
      assert Range(n) == Range(last) + [last];
    }
  }

  /** Creating an instance of the class constructs the delegate at
      position `j` of `n` exactly `n - j` times; the last construction of
      each delegate is the one its instance attribute keeps, made by the
      outermost wrapper in delegate order. */
  lemma {:induction false} InitCount(n: nat, j: nat)
    requires j < n
    ensures multiset(InitOrder(n))[j] == n - j
    decreases n
  {
    var prev: nat := n - 1;
    var before := InitOrder(prev);
    RangeCount(n, j);
    assert InitOrder(n) == before + Range(n);
    var mb: multiset<nat> := multiset(before);
    assert multiset(InitOrder(n))[j] == mb[j] + 1;
    if j < prev {
      InitCount(prev, j);
    } else {
      Absent(before, j);
    }
  }

  lemma Absent(xs: seq<nat>, j: nat)
    requires forall i :: 0 <= i < |xs| ==> xs[i] < j
    ensures multiset(xs)[j] == 0
  {
    assert j !in xs;
  }

  /** ','.join */
  function JoinComma(xs: seq<string>): string
    decreases |xs|
  {
    if |xs| == 0 then "" else if |xs| == 1 then xs[0] else xs[0] + "," + JoinComma(xs[1..])
  }

  /** str.split(','): always at least one part. */
  function SplitComma(s: string): (r: seq<string>)
    ensures |r| >= 1
    decreases |s|
  {
    if s == [] then [""]
    else
      var rest := SplitComma(s[1..]);
      if s[0] == ',' then [""] + rest else [[s[0]] + rest[0]] + rest[1..]
  }

  predicate NoComma(a: string) {
    forall k :: 0 <= k < |a| ==> a[k] != ','
  }

  lemma {:induction false} SplitAppend(a: string, rest: string)
    requires NoComma(a)
    ensures SplitComma(a + rest) == [a + SplitComma(rest)[0]] + SplitComma(rest)[1..]
    decreases |a|
  {
    if a != [] {
      assert (a + rest)[0] == a[0] != ',';
      assert (a + rest)[1..] == a[1..] + rest;
      SplitAppend(a[1..], rest);
      var r := SplitComma(a[1..] + rest);
      var s := SplitComma(rest);
      assert SplitComma(a + rest) == [[a[0]] + r[0]] + r[1..];
      assert r[0] == a[1..] + s[0];
      assert r[1..] == s[1..];
      assert [a[0]] + r[0] == [a[0]] + (a[1..] + s[0]) == a + s[0];
      assert [[a[0]] + r[0]] + r[1..] == [a + s[0]] + s[1..];
    } else {
      var s := SplitComma(rest);
      assert a + rest == rest && a + s[0] == s[0];
      assert [s[0]] + s[1..] == s;
    }
  }

  /** Splitting the joined list gives the list back, when no part holds a
      comma. */
  lemma {:induction false} SplitJoin(xs: seq<string>)
    requires |xs| >= 1 && forall i :: 0 <= i < |xs| ==> NoComma(xs[i])
    ensures SplitComma(JoinComma(xs)) == xs
    decreases |xs|
  {
    if |xs| == 1 {
      SplitAppend(xs[0], "");
      assert xs[0] + "" == xs[0];
    } else {
      SplitJoin(xs[1..]);
      assert xs[0] + "," + JoinComma(xs[1..]) == xs[0] + ("," + JoinComma(xs[1..]));
      SplitAppend(xs[0], "," + JoinComma(xs[1..]));
      var tail := "," + JoinComma(xs[1..]);
      assert tail[0] == ',' && tail[1..] == JoinComma(xs[1..]);
      assert SplitComma(tail) == [""] + xs[1..];
      assert xs[0] + "" == xs[0];
      assert [xs[0]] + xs[1..] == xs;
    }
  }

  /** The arguments a forwarder passes on: all of the method's positional
      arguments except the first (`self`). */
  function Forwarded(args: seq<string>): seq<string> {
    if args == [] then [] else args[1..]
  }

  /** The head of the forwarding body, up to the opening parenthesis. */
  function CallHead(delegateName: string, fname: string): string {
    "return self." + delegateName + "." + fname + "("
  }

  /** The body `forwarder` compiles: a call of the same method on the
      delegate instance with the same arguments. */
  function ForwarderBody(delegateName: string, fname: string, args: seq<string>): (b: string)
    ensures |b| > |CallHead(delegateName, fname)|
    ensures b[..|CallHead(delegateName, fname)|] == CallHead(delegateName, fname) && b[|b| - 1] == ')'
  {
    CallHead(delegateName, fname) + JoinComma(Forwarded(args)) + ")"
  }

  /** Reading the argument list back out of the body gives exactly the
      arguments after `self`; a method taking only `self` forwards a call
      with no arguments. */
  lemma ForwarderPassesArgs(delegateName: string, fname: string, args: seq<string>)
    requires forall i :: 0 <= i < |args| ==> NoComma(args[i])
    ensures var b := ForwarderBody(delegateName, fname, args);
      var h := |CallHead(delegateName, fname)|;
      |args| >= 2 ==> SplitComma(b[h..|b| - 1]) == args[1..]
    ensures |args| <= 1 ==> ForwarderBody(delegateName, fname, args) == CallHead(delegateName, fname) + ")"
  {
    var b := ForwarderBody(delegateName, fname, args);
    var h := |CallHead(delegateName, fname)|;
    if |args| >= 2 {
      assert b[h..|b| - 1] == JoinComma(args[1..]);
      SplitJoin(args[1..]);
    } else {
      assert JoinComma(Forwarded(args)) == "";
    }
  }

  /** The two descriptions of truth agree: a value is true exactly when
      it is not one of the listed false values. */
  lemma TruthyIffNotFalse(v: PyValue)
    ensures Truthy(v) <==> !FalseValue(v)
  {
  }

  /** A Python value as far as its truth value goes; `PyObject` is an
      instance that defines neither `__nonzero__` nor `__len__`. */
  datatype PyValue = PyNone | PyBool(b: bool) | PyInt(i: int) | PyStr(s: string) | PyList(items: seq<PyValue>) | PyObject

  /** `bool(v)`. */
  predicate Truthy(v: PyValue) {
    match v
    case PyNone => false
    case PyBool(b) => b
    case PyInt(i) => i != 0
    case PyStr(s) => |s| > 0
    case PyList(xs) => |xs| > 0
    case PyObject => true
  }

  /** The false values, listed: `None`, `False`, `0`, `''` and `[]`. */
  predicate FalseValue(v: PyValue) {
    v == PyNone || v == PyBool(false) || v == PyInt(0) || v == PyStr("") || v == PyList([])
  }

  /** `on_condition(cond, dec, *args)` applied to `fnc`: `fnc` itself for
      every false value of `cond`, the decorator built from `args` applied
      to `fnc` for every other value. */
  function OnCondition<A, F>(cond: PyValue, dec: A -> (F -> F), args: A, fnc: F): (r: F)
    ensures FalseValue(cond) ==> r == fnc
    ensures !FalseValue(cond) ==> r == dec(args)(fnc)
  {
    if Truthy(cond) then dec(args)(fnc) else fnc
  }
}

=== FILE: driver.dfy ===
/**
  The run loops of the case-iterator driver: the server start-up wave and
  reply dispatch of the concurrent path, the `step` / `resume` loops of the
  sequential path, and the properties of whole runs.
*/
module Driver {
  import opened Basics
  import opened Cases
  import opened Scheduler
  import opened Conservation
  import opened Invariants

  /** A worker's message to the coordinator: a reply to its last request,
      or the report that its server could not be allocated. */
  datatype Event = Reply(w: Worker, o: Outcome) | StartFailed(w: Worker)

  /** How a loop ended: normally, by running out of cases (the
      `StopIteration` of `step`), by running out of modelled replies while
      some worker was still in use, or by an exception. */
  datatype Progress = Done(s: Sched) | Exhausted(s: Sched) | Unfinished(s: Sched) | Fault(msg: string)

  /** How `resume` ends: completed, stopped (`RunStopped` after cleanup),
      failed with an exception, or still running when the replies ran out. */
  datatype RunEnd = Completed(s: Sched) | Stopped(s: Sched) | Failed(msg: string) | Pending(s: Sched)

  /** The state after the start-up wave, with the number of servers started. */
  datatype Wave = Wave(s: Sched, started: nat)

  const NoServers := "No servers supporting required resources"
  const AlreadyComplete := "Run already complete"

  /** Register the k-th server of the run. */
  function Register(s: Sched, k: nat): Sched {
    s.(table := s.table[Remote(k) := Started])
  }

  /** No server numbered above `n` has been registered yet. */
  ghost predicate FreshAbove(s: Sched, n: nat) {
    forall v :: v in s.table && v.Remote? ==> v.n <= n
  }

  /** The loop of `_start` that kicks off the initial wave: before each
      server start one case is pulled into `todo`; the loop stops at
      `max` servers, on a stop request, or when the iterator is (or
      becomes) exhausted.  An exhausted iterator with retries pending still
      starts servers, without pulling. */
  function StartLoop(s: Sched, n: nat, max: nat): (r: Wave)
    requires n <= max
    ensures n <= r.started <= max
    ensures r.started == max || s.stop || r.s.exhausted
    decreases max - n
  {
    if n == max || s.stop || s.exhausted then Wave(s, n)
    else if s.source == [] then
      if s.rerun == [] then Wave(s.(exhausted := true), n)
      else StartLoop(Register(s, n + 1), n + 1, max)
    else
      StartLoop(Register(s.(todo := s.todo + [s.source[0]], source := s.source[1..]), n + 1), n + 1, max)
  }

  /** The servers numbered n+1 .. m, each registered in the start-up
      state, are exactly what `r` adds to the table of `s`. */
  ghost predicate Registered(s: Sched, r: Sched, n: nat, m: nat) {
    && (forall v :: v in r.table <==> v in s.table || (v.Remote? && n < v.n <= m))
    && (forall v :: v in r.table && v.Remote? && n < v.n <= m ==> r.table[v] == Started)
    && (forall v :: v in s.table && !(v.Remote? && n < v.n <= m) ==> r.table[v] == s.table[v])
  }

  /** The wave registers servers n+1 .. started, each in the start-up
      state, and leaves every other row alone. */
  lemma {:induction false} StartLoopRegisters(s: Sched, n: nat, max: nat)
    requires n <= max
    ensures Registered(s, StartLoop(s, n, max).s, n, StartLoop(s, n, max).started)
    decreases max - n
  {
    if !(n == max || s.stop || s.exhausted || (s.source == [] && s.rerun == [])) {
      var s1 := if s.source == [] then s else s.(todo := s.todo + [s.source[0]], source := s.source[1..]);
      var s2 := Register(s1, n + 1);
      StartLoopRegisters(s2, n + 1, max);
      RegisteredStep(s, s2, StartLoop(s2, n + 1, max).s, n, StartLoop(s2, n + 1, max).started);
    }
  }

  lemma RegisteredStep(s: Sched, s2: Sched, r: Sched, n: nat, m: nat)
    requires s2.table == s.table[Remote(n + 1) := Started] && n < m
    requires Registered(s2, r, n + 1, m)
    ensures Registered(s, r, n, m)
  {
  }

  /** When the table held no server numbered above n, the wave leaves
      every row it found untouched. */
  lemma FreshRowsKept(s: Sched, n: nat, max: nat)
    requires n <= max && FreshAbove(s, n)
    ensures forall v :: v in s.table ==> v in StartLoop(s, n, max).s.table && StartLoop(s, n, max).s.table[v] == s.table[v]
  {
    StartLoopRegisters(s, n, max);
  }

  /** The wave moves a prefix of the iterator into `todo`, at most one
      case per server started and exactly one when no retry is pending;
      it marks the iterator exhausted only when the iterator ran dry with
      no retry pending. */
  lemma {:induction false} StartLoopPulls(s: Sched, n: nat, max: nat)
    requires n <= max
    ensures var r := StartLoop(s, n, max);
      && |r.s.source| <= |s.source|
      && r.s.source == s.source[|s.source| - |r.s.source|..]
      && r.s.todo == s.todo + s.source[..|s.source| - |r.s.source|]
      && |s.source| - |r.s.source| <= r.started - n
      && (s.rerun == [] ==> |s.source| - |r.s.source| == r.started - n)
      && (r.s.exhausted && !s.exhausted ==> s.rerun == [] && r.s.source == [])
      && r.s.rerun == s.rerun && r.s.recorded == s.recorded && r.s.stop == s.stop
      && r.s.cfg == s.cfg && r.s.transfers == s.transfers
    decreases max - n
  {
    if n == max || s.stop || s.exhausted || s.source == [] {
      if !(n == max || s.stop || s.exhausted) && s.rerun != [] {
        StartLoopPulls(Register(s, n + 1), n + 1, max);
      }
    } else {
      var s1 := s.(todo := s.todo + [s.source[0]], source := s.source[1..]);
      StartLoopPulls(Register(s1, n + 1), n + 1, max);
      var r := StartLoop(s, n, max);
      var k := |s.source| - |r.s.source|;
      assert s.source[..k] == [s.source[0]] + s1.source[..k - 1];
      assert s.source[k..] == s1.source[k - 1..];
    }
  }

  /** The server-count logic of `_start`: no capacity is an error raised
      before any case is pulled or any server started. */
  function Start(s: Sched, maxServers: int): (r: Result<Wave>)
    ensures r.Err? <==> maxServers <= 0
    ensures r.Err? ==> r.msg == NoServers
    ensures r.Ok? ==> r.value.started <= maxServers
  {
    if maxServers <= 0 then Err(NoServers) else Ok(StartLoop(s, 0, maxServers))
  }

  /** `self._in_use[name] = ...` */
  function MarkInUse(s: Sched, w: Worker, b: bool): Sched
    requires w in s.table
  {
    s.(table := s.table[w := s.table[w].(inUse := b)])
  }

  /** One message taken off the reply queue: a start-up failure retires
      the worker, as the start loop's check does, and a reply drives it one
      step.  A message from a worker that is not in use cannot arrive and is
      ignored. */
  function Handle(s: Sched, e: Event): (r: Result<Sched>)
    ensures r.Ok? ==> r.value.table.Keys == s.table.Keys
  {
    match e
    case StartFailed(w) =>
      if w in s.table && s.table[w].inUse && s.table[w].state == Empty
      then Ok(MarkInUse(s, w, false))
      else Ok(s)
    case Reply(w, o) =>
      if w in s.table && s.table[w].inUse then
        match Tick(s, w, false, o)
        case Err(m) => Err(m)
        case Ok(t) => Ok(MarkInUse(t.next, w, t.inUse))
      else Ok(s)
  }

  /** The dispatch loop of `_start`: while some server is in use, take the
      next message and handle it.  Messages are taken in the order given,
      which stands for the order replies arrive in. */
  function Dispatch(s: Sched, events: seq<Event>): (r: Progress)
    ensures !r.Exhausted?
    ensures r.Done? ==> !Busy(r.s)
    ensures r.Unfinished? ==> Busy(r.s)
    decreases |events|
  {
    if !Busy(s) then Done(s)
    else if events == [] then Unfinished(s)
    else match Handle(s, events[0])
      case Err(m) => Fault(m)
      case Ok(n) => Dispatch(n, events[1..])
  }

  /** Whether a worker is owed a reply after a step.  A service thread
      replies only to a request on its own queue, and `_model_set` runs
      synchronously, so in `_start` as written (`requeue` false) a worker
      is owed a reply only when its step queued a load or an execution.
      The corrected driver (`requeue` true) also keeps a worker that stays
      in use owed a reply, as if the step put that reply on the queue
      itself. */
  predicate Owed(t: Turn, requeue: bool) {
    t.queued || (requeue && t.inUse)
  }

  /** One message taken off the reply queue when messages can only come
      from the workers in `owed`: each started server owes its start-up
      reply, and a step leaves its worker owed a reply as `Owed` says. */
  function HandleOwed(s: Sched, owed: set<Worker>, e: Event, requeue: bool): (r: Result<(Sched, set<Worker>)>)
    ensures r.Ok? ==> r.value.0.table.Keys == s.table.Keys && r.value.1 <= owed + {e.w}
    ensures e.w !in owed ==> r == Ok((s, owed))
  {
    match e
    case StartFailed(w) =>
      if w in owed && w in s.table && s.table[w].inUse && s.table[w].state == Empty
      then Ok((MarkInUse(s, w, false), owed - {w}))
      else Ok((s, owed))
    case Reply(w, o) =>
      if w in owed && w in s.table && s.table[w].inUse then
        match Tick(s, w, false, o)
        case Err(m) => Err(m)
        case Ok(t) => Ok((MarkInUse(t.next, w, t.inUse), if Owed(t, requeue) then owed else owed - {w}))
      else Ok((s, owed))
  }

  /** The dispatch loop of `_start` when messages can only come from owed
      workers. */
  function DispatchOwed(s: Sched, owed: set<Worker>, events: seq<Event>, requeue: bool): (r: Progress)
    ensures !r.Exhausted?
    ensures r.Done? ==> !Busy(r.s)
    ensures r.Unfinished? ==> Busy(r.s)
    decreases |events|
  {
    if !Busy(s) then Done(s)
    else if events == [] then Unfinished(s)
    else match HandleOwed(s, owed, events[0], requeue)
      case Err(m) => Fault(m)
      case Ok(n) => DispatchOwed(n.0, n.1, events[1..], requeue)
  }

  /** Every worker in use is owed a reply. */
  ghost predicate AllOwed(s: Sched, owed: set<Worker>) {
    forall v :: v in s.table && s.table[v].inUse ==> v in owed
  }

  /** Some worker is in use but none of them is owed a reply: `_busy()`
      stays true while the reply queue stays empty. */
  ghost predicate Stalled(s: Sched, owed: set<Worker>) {
    Busy(s) && forall v :: v in s.table && s.table[v].inUse ==> v !in owed
  }

  /** A stalled loop never ends: whatever arrives, nothing changes and the
      loop is still waiting when the messages run out. */
  lemma {:induction false} StalledHangs(s: Sched, owed: set<Worker>, events: seq<Event>, requeue: bool)
    requires Stalled(s, owed)
    ensures DispatchOwed(s, owed, events, requeue) == Unfinished(s)
    decreases |events|
  {
    if events != [] {
      var e := events[0];
      assert HandleOwed(s, owed, e, requeue) == Ok((s, owed)) by {
        if e.w in owed && e.w in s.table { assert !s.table[e.w].inUse; }
      }
      StalledHangs(s, owed, events[1..], requeue);
    }
  }

  /** With every worker in use owed a reply, the corrected handling of a
      message is `Handle`, and every worker in use stays owed a reply. */
  lemma HandleFixedAgrees(s: Sched, owed: set<Worker>, e: Event)
    requires AllOwed(s, owed)
    ensures var r := HandleOwed(s, owed, e, true);
      var h := Handle(s, e);
      (r.Ok? <==> h.Ok?) && (r.Ok? ==> r.value.0 == h.value && AllOwed(r.value.0, r.value.1))
  {
    match e
    case StartFailed(w) =>
    case Reply(w, o) =>
      if w in s.table && s.table[w].inUse {
        var r := Tick(s, w, false, o);
        if r.Ok? {
          var t := r.value;
          var n := MarkInUse(t.next, w, t.inUse);
          var owed' := if Owed(t, true) then owed else owed - {w};
          assert OnlyRowChanged(s.(stop := s.stop || o.stopRequest), t.next, w);
          forall v | v in n.table && n.table[v].inUse ensures v in owed' {
            if v != w { assert n.table[v] == s.table[v]; }
          }
        }
      }
  }

  /** The corrected loop is `Dispatch`: every theorem about `Dispatch`
      holds of the driver that keeps its busy workers owed a reply. */
  lemma {:induction false} DispatchFixedAgrees(s: Sched, owed: set<Worker>, events: seq<Event>)
    requires AllOwed(s, owed)
    ensures DispatchOwed(s, owed, events, true) == Dispatch(s, events)
    decreases |events|
  {
    if Busy(s) && events != [] {
      HandleFixedAgrees(s, owed, events[0]);
      var r := HandleOwed(s, owed, events[0], true);
      if r.Ok? {
        DispatchFixedAgrees(r.value.0, r.value.1, events[1..]);
      }
    }
  }

  /** A step that leaves its worker in use without queueing anything
      stalls the loop as written when no other busy worker is owed a
      reply. */
  lemma StepStalls(s: Sched, owed: set<Worker>, w: Worker, o: Outcome, t: Turn, more: seq<Event>)
    requires w in s.table && w in owed && s.table[w].inUse
    requires Tick(s, w, false, o) == Ok(t) && t.inUse && !t.queued
    requires forall v :: v in s.table && v != w && s.table[v].inUse ==> v !in owed
    ensures HandleOwed(s, owed, Reply(w, o), false) == Ok((MarkInUse(t.next, w, true), owed - {w}))
    ensures DispatchOwed(s, owed, [Reply(w, o)] + more, false) == Unfinished(MarkInUse(t.next, w, true))
  {
    var n := MarkInUse(t.next, w, true);
    assert OnlyRowChanged(s.(stop := s.stop || o.stopRequest), t.next, w);
    assert Stalled(n, owed - {w}) by {
      assert n.table[w].inUse;
      forall v | v in n.table && n.table[v].inUse ensures v !in owed - {w} {
        if v != w { assert n.table[v] == s.table[v]; }
      }
    }
    StalledHangs(n, owed - {w}, more, false);
    assert ([Reply(w, o)] + more)[1..] == more;
  }

  /** A ready remote worker with a case to run whose inputs cannot be set
      goes to `_ERROR` and stays in use, but `_run_case` queued nothing,
      so as written it is owed no reply; when no other busy worker is owed
      one, the loop waits forever. */
  lemma InputFailureStalls(s: Sched, owed: set<Worker>, w: Worker, o: Outcome, more: seq<Event>)
    requires w in s.table && w.Remote? && w in owed && s.table[w].inUse && s.table[w].state == Ready
    requires !s.stop && !o.stopRequest && o.setting.InputSetFailed?
    requires s.todo != [] || s.rerun != [] || (!s.exhausted && s.source != [])
    requires forall v :: v in s.table && v != w && s.table[v].inUse ==> v !in owed
    ensures var r := HandleOwed(s, owed, Reply(w, o), false);
      && r.Ok? && r.value.1 == owed - {w}
      && r.value.0.table[w].inUse && r.value.0.table[w].state == Error
      && DispatchOwed(s, owed, [Reply(w, o)] + more, false) == Unfinished(r.value.0)
  {
    var t := ReadyTurn(s, w, false, o.setting);
    assert Tick(s, w, false, o) == Ok(t);
    StepStalls(s, owed, w, o, t, more);
  }

  /** A remote worker that completes a case without error, with
      `reload_model` off, becomes ready and stays in use, but nothing is
      queued, so as written it is owed no reply; when no other busy worker
      is owed one, the loop waits forever. */
  lemma QuietCompleteStalls(s: Sched, owed: set<Worker>, w: Worker, o: Outcome, more: seq<Event>)
    requires w in s.table && w.Remote? && w in owed && s.table[w].inUse && s.table[w].state == Complete
    requires s.table[w].current.Some? && s.table[w].current.value.msg.None? && !s.cfg.reloadModel
    requires o.execError.None?
    requires forall i :: 0 <= i < |s.table[w].current.value.outputs| ==>
      !FetchFails(o.fetch, s.table[w].current.value.outputs[i])
    requires forall v :: v in s.table && v != w && s.table[v].inUse ==> v !in owed
    ensures var r := HandleOwed(s, owed, Reply(w, o), false);
      && r.Ok? && r.value.1 == owed - {w}
      && r.value.0.table[w].inUse && r.value.0.table[w].state == Ready
      && DispatchOwed(s, owed, [Reply(w, o)] + more, false) == Unfinished(r.value.0)
  {
    var c := s.table[w].current.value;
    CompletedMessage(c, o, s.cfg.pathname);
    assert !ReloadWanted(Scheduler.Completed(c, o, s.cfg.pathname).msg, s.cfg.reloadModel);
    var ct := CompleteTurn(s.(stop := s.stop || o.stopRequest), w, o);
    assert ct.Ok? && Tick(s, w, false, o) == ct;
    StepStalls(s, owed, w, o, ct.value, more);
  }

  /** `_cleanup`, then `RunStopped` if a stop was requested. */
  function Finish(s: Sched): (r: RunEnd)
    ensures r.Completed? || r.Stopped?
    ensures r.Stopped? <==> s.stop
    ensures r.s.recorded == s.recorded && r.s.todo == [] && r.s.rerun == [] && !Busy(r.s)
  {
    var c := Cleanup(s);
    if c.stop then Stopped(c) else Completed(c)
  }

  /** `resume` on the concurrent path. */
  function ResumeConcurrent(s: Sched, maxServers: int, events: seq<Event>): (r: RunEnd)
    ensures s.exhausted ==> r == Failed(AlreadyComplete)
    ensures !s.exhausted && maxServers <= 0 ==> r == Failed(NoServers)
  {
    var s0 := s.(stop := false);
    if s0.exhausted then Failed(AlreadyComplete)
    else match Start(s0, maxServers)
      case Err(m) => Failed(m)
      case Ok(wave) =>
        match Dispatch(wave.s, events)
        case Done(s1) => Finish(s1)
        case Exhausted(s1) => Finish(s1)
        case Unfinished(s1) => Pending(s1)
        case Fault(m) => Failed(m)
  }

  /** `execute` on the concurrent path: `setup` followed by `resume`. */
  function ExecuteConcurrent(s: Sched, cases: seq<Case>, maxServers: int, events: seq<Event>): RunEnd {
    ResumeConcurrent(Setup(s, cases), maxServers, events)
  }

  /** `while self._server_ready(None, stepping=True): pass`, one outcome
      per call. */
  function DriveLocal(s: Sched, outs: seq<Outcome>): (r: Progress)
    requires Local in s.table
    ensures !r.Exhausted?
    decreases |outs|
  {
    if outs == [] then Unfinished(s)
    else match Tick(s, Local, true, outs[0])
      case Err(m) => Fault(m)
      case Ok(t) => if t.inUse then DriveLocal(t.next, outs[1..]) else Done(t.next)
  }

  /** The pull of `step`: one case moves from the iterator to `todo`;
      an empty iterator with retries pending is left as it is. */
  function Pull(s: Sched): (r: Sched)
    requires s.source != [] || s.rerun != []
    ensures s.source != [] ==> r.todo == s.todo + [s.source[0]] && r.source == s.source[1..]
    ensures s.source == [] ==> r == s
    ensures r.table == s.table && r.rerun == s.rerun && r.recorded == s.recorded
    ensures r.exhausted == s.exhausted && r.stop == s.stop
  {
    if s.source == [] then s
    else s.(todo := s.todo + [s.source[0]], source := s.source[1..])
  }

  /** `self._server_cases[None] = None; self._server_states[None] = _EMPTY`:
      the local worker starts empty, keeping its in-use flag and its egg. */
  function ResetLocal(s: Sched): (r: Sched)
    ensures r.table.Keys == s.table.Keys + {Local}
    ensures r.table[Local].state == Empty && r.table[Local].current.None?
    ensures forall v :: v in s.table && v != Local ==> r.table[v] == s.table[v]
    ensures r == s.(table := r.table)
  {
    var row := if Local in s.table then s.table[Local].(state := Empty, current := None)
               else WorkerRec(Empty, None, false, None);
    s.(table := s.table[Local := row])
  }

  /** `step`: evaluate the next case in-process.  A finished iterator is
      replaced by a fresh one (`setup`); one case is pulled into `todo`
      (when none is left and no retry is pending the iterator is marked
      exhausted and `StopIteration` escapes); then the local worker is
      reset and driven until it retires. */
  function Step(s: Sched, cases: seq<Case>, outs: seq<Outcome>): (r: Progress)
    ensures r.Exhausted? ==> r.s.exhausted && r.s.source == [] && r.s.rerun == []
  {
    var s0 := s.(stop := false);
    var s1 := if s0.exhausted then Setup(s0, cases) else s0;
    if s1.source == [] && s1.rerun == [] then Exhausted(s1.(exhausted := true))
    else DriveLocal(ResetLocal(Pull(s1)), outs)
  }

  /** The loop of `resume` on the sequential path: step until the
      iterator is exhausted or a stop is requested. */
  function SeqLoop(s: Sched, steps: seq<seq<Outcome>>): (r: Progress)
    ensures !r.Exhausted?
    decreases |steps|
  {
    if s.exhausted || s.stop then Done(s)
    else if steps == [] then Unfinished(s)
    else match Step(s, [], steps[0])
      case Done(s1) => SeqLoop(s1, steps[1..])
      case Exhausted(s1) => Done(s1)
      case Unfinished(s1) => Unfinished(s1)
      case Fault(m) => Fault(m)
  }

  /** `resume` on the sequential path. */
  function ResumeSequential(s: Sched, steps: seq<seq<Outcome>>): (r: RunEnd)
    ensures s.exhausted ==> r == Failed(AlreadyComplete)
  {
    var s0 := s.(stop := false);
    if s0.exhausted then Failed(AlreadyComplete)
    else match SeqLoop(s0, steps)
      case Done(s1) => Finish(s1)
      case Exhausted(s1) => Finish(s1)
      case Unfinished(s1) => Pending(s1)
      case Fault(m) => Failed(m)
  }

  /** `execute` on the sequential path. */
  function ExecuteSequential(s: Sched, cases: seq<Case>, steps: seq<seq<Outcome>>): RunEnd {
    ResumeSequential(Setup(s, cases), steps)
  }
}

=== FILE: invariants.dfy ===
/**
  Facts every step of a worker keeps: slots of idle workers are empty,
  retry counters stay within their limit, an exhausted iterator has no
  cases left, and the egg is sent to a worker at most once per run.
*/
module Invariants {
  import opened Basics
  import opened Cases
  import opened Scheduler

  /** A worker that is not running a case has an empty slot. */
  predicate WellFormed(s: Sched) {
    forall v :: v in s.table && (s.table[v].state == Empty || s.table[v].state == Ready) ==>
      s.table[v].current.None?
  }

  /** A case has not been retried more often than it may be. */
  predicate Bounded(c: Case) {
    c.retries <= c.maxRetries
  }

  /** Every case waiting for a retry, and every case a worker holds, is
      within its retry limit. */
  predicate RetriesBounded(s: Sched) {
    && (forall i :: 0 <= i < |s.rerun| ==> Bounded(s.rerun[i]))
    && (forall v :: v in s.table && s.table[v].current.Some? ==> Bounded(s.table[v].current.value))
  }

  /** `_iter is None` only once the iterator has run out. */
  predicate ExhaustedEmpty(s: Sched) {
    s.exhausted ==> s.source == []
  }

  /** The transfer log holds each worker once exactly when that worker has
      the run's egg cached, and never otherwise. */
  ghost predicate EggLogged(s: Sched) {
    forall v :: multiset(s.transfers)[v] == (if v in s.table && s.table[v].egg == Some(s.cfg.egg) then 1 else 0)
  }

  /** Everything recorded after `n` cases is within its retry limit. */
  predicate RecordedBounded(s: Sched, n: nat) {
    forall i :: n <= i < |s.recorded| ==> Bounded(s.recorded[i])
  }

  /** A step that only touches row `w` keeps the slots well formed as long
      as row `w` is. */
  lemma WellFormedFrame(s: Sched, r: Sched, w: Worker)
    requires WellFormed(s) && OnlyRowChanged(s, r, w)
    requires r.table[w].state == Empty || r.table[w].state == Ready ==> r.table[w].current.None?
    ensures WellFormed(r)
  {
  }

  lemma {:induction false} TurnKeepsWellFormed(s: Sched, w: Worker, stepping: bool, o: Outcome)
    requires w in s.table && WellFormed(s)
    ensures ServerReady(s, w, stepping, o).Ok? ==> WellFormed(ServerReady(s, w, stepping, o).value.next)
  {
    var r := ServerReady(s, w, stepping, o);
    if r.Ok? {
      var n := r.value.next;
      match s.table[w].state
      case Empty =>
        assert n == EmptyTurn(s, w, o.loadOk).next;
        WellFormedFrame(s, n, w);
      case Ready =>
        assert n == ReadyTurn(s, w, stepping, o.setting).next;
        WellFormedFrame(s, n, w);
      case Complete =>
        WellFormedFrame(s, n, w);
      case Error =>
        WellFormedFrame(s, n, w);
    }
  }

  lemma RunCaseKeepsBounded(s: Sched, c: Case, w: Worker, rerun: bool, setting: SetOutcome)
    requires w in s.table && RetriesBounded(s)
    requires rerun ==> Bounded(c)
    ensures RetriesBounded(RunCase(s, c, w, rerun, setting))
    ensures RecordedBounded(RunCase(s, c, w, rerun, setting), |s.recorded|)
  {
    var r := RunCase(s, c, w, rerun, setting);
    assert Bounded(r.table[w].current.value);
  }

  lemma ReadyTurnKeepsBounded(s: Sched, w: Worker, stepping: bool, setting: SetOutcome)
    requires w in s.table && s.table[w].state == Ready && RetriesBounded(s)
    ensures RetriesBounded(ReadyTurn(s, w, stepping, setting).next)
    ensures RecordedBounded(ReadyTurn(s, w, stepping, setting).next, |s.recorded|)
  {
    if s.stop {
    } else if s.todo != [] {
      RunCaseKeepsBounded(s.(todo := s.todo[1..]), s.todo[0], w, false, setting);
    } else if s.rerun != [] {
      var s' := s.(rerun := s.rerun[1..]);
      assert RetriesBounded(s') by {
        assert forall i :: 0 <= i < |s'.rerun| ==> s'.rerun[i] == s.rerun[i + 1];
      }
      RunCaseKeepsBounded(s', s.rerun[0], w, true, setting);
    } else if s.exhausted || stepping || s.source == [] {
    } else {
      RunCaseKeepsBounded(s.(source := s.source[1..]), s.source[0], w, false, setting);
    }
  }

  lemma CompleteTurnKeepsBounded(s: Sched, w: Worker, o: Outcome)
    requires w in s.table && s.table[w].state == Complete && RetriesBounded(s)
    ensures CompleteTurn(s, w, o).Ok? ==> RetriesBounded(CompleteTurn(s, w, o).value.next)
    ensures CompleteTurn(s, w, o).Ok? ==> RecordedBounded(CompleteTurn(s, w, o).value.next, |s.recorded|)
  {
    var r := CompleteTurn(s, w, o);
    if r.Ok? {
      var c := s.table[w].current.value;
      assert Bounded(c);
      var d := Completed(c, o, s.cfg.pathname);
      assert r.value.next.recorded == s.recorded + [d];
    }
  }

  /** A step that only touches row `w`, leaves the retry queue and the
      record alone and puts nothing new in the slot keeps every counter
      within its limit. */
  lemma RowKeepsBounded(s: Sched, n: Sched, w: Worker)
    requires OnlyRowChanged(s, n, w) && RetriesBounded(s)
    requires n.rerun == s.rerun && n.recorded == s.recorded
    requires n.table[w].current.Some? ==> n.table[w].current == s.table[w].current
    ensures RetriesBounded(n) && RecordedBounded(n, |s.recorded|)
  {
  }

  /** A step never lets a retry counter exceed its limit, and every case a
      step records is within its limit. */
  lemma {:induction false} TurnKeepsRetriesBounded(s: Sched, w: Worker, stepping: bool, o: Outcome)
    requires w in s.table && RetriesBounded(s)
    ensures ServerReady(s, w, stepping, o).Ok? ==> RetriesBounded(ServerReady(s, w, stepping, o).value.next)
    ensures ServerReady(s, w, stepping, o).Ok? ==>
      RecordedBounded(ServerReady(s, w, stepping, o).value.next, |s.recorded|)
  {
    var r := ServerReady(s, w, stepping, o);
    match s.table[w].state
    case Empty =>
      assert r == Ok(EmptyTurn(s, w, o.loadOk));
      RowKeepsBounded(s, r.value.next, w);
    case Ready =>
      assert r == Ok(ReadyTurn(s, w, stepping, o.setting));
      ReadyTurnKeepsBounded(s, w, stepping, o.setting);
    case Complete =>
      assert r == CompleteTurn(s, w, o);
      CompleteTurnKeepsBounded(s, w, o);
    case Error =>
      assert r == Ok(ErrorTurn(s, w, o.loadOk));
      RowKeepsBounded(s, r.value.next, w);
  }

  lemma {:induction false} TurnKeepsExhaustedEmpty(s: Sched, w: Worker, stepping: bool, o: Outcome)
    requires w in s.table && ExhaustedEmpty(s)
    ensures ServerReady(s, w, stepping, o).Ok? ==> ExhaustedEmpty(ServerReady(s, w, stepping, o).value.next)
  {
    var r := ServerReady(s, w, stepping, o);
    if r.Ok? {
      match s.table[w].state
      case Empty =>
        assert r == Ok(EmptyTurn(s, w, o.loadOk));
      case Ready =>
        assert r == Ok(ReadyTurn(s, w, stepping, o.setting));
      case Complete =>
        assert r == CompleteTurn(s, w, o);
      case Error =>
        assert r == Ok(ErrorTurn(s, w, o.loadOk));
    }
  }

  lemma LoadKeepsEggLogged(s: Sched, w: Worker, ok: bool)
    requires w in s.table && EggLogged(s)
    ensures LoadModel(s, w, ok).Some? ==> EggLogged(LoadModel(s, w, ok).value)
  {
    if ok && w.Remote? && s.table[w].egg != Some(s.cfg.egg) {
      var r := LoadModel(s, w, ok).value;
      assert multiset(r.transfers) == multiset(s.transfers) + multiset{w};
    }
  }

  /** Changing anything of a row but its egg keeps the transfer log exact. */
  lemma PutKeepsEggLogged(s: Sched, w: Worker, rec: WorkerRec)
    requires w in s.table && EggLogged(s) && rec.egg == s.table[w].egg
    ensures EggLogged(s.(table := s.table[w := rec]))
  {
  }

  lemma EggLoggedFrame(s: Sched, r: Sched, w: Worker)
    requires EggLogged(s) && OnlyRowChanged(s, r, w)
    requires r.transfers == s.transfers && r.table[w].egg == s.table[w].egg
    ensures EggLogged(r)
  {
    forall v
      ensures multiset(r.transfers)[v] == (if v in r.table && r.table[v].egg == Some(r.cfg.egg) then 1 else 0)
    {
      assert multiset(s.transfers)[v] == (if v in s.table && s.table[v].egg == Some(s.cfg.egg) then 1 else 0);
    }
  }

  lemma CompleteTurnKeepsEggLogged(s: Sched, w: Worker, o: Outcome)
    requires w in s.table && s.table[w].state == Complete && EggLogged(s)
    ensures CompleteTurn(s, w, o).Ok? ==> EggLogged(CompleteTurn(s, w, o).value.next)
  {
    var rec := s.table[w];
    if rec.current.Some? {
      var d := Completed(rec.current.value, o, s.cfg.pathname);
      var s1 := s.(table := s.table[w := rec.(current := None)], recorded := s.recorded + [d]);
      EggLoggedFrame(s, s1, w);
      LoadKeepsEggLogged(s1, w, o.loadOk);
      if ReloadWanted(d.msg, s.cfg.reloadModel) {
        match LoadModel(s1, w, o.loadOk)
        case None =>
        case Some(s2) => PutKeepsEggLogged(s2, w, s2.table[w].(state := Ready));
      } else {
        PutKeepsEggLogged(s1, w, s1.table[w].(state := Ready));
      }
    }
  }

  lemma ErrorTurnKeepsEggLogged(s: Sched, w: Worker, loadOk: bool)
    requires w in s.table && s.table[w].state == Error && EggLogged(s)
    ensures EggLogged(ErrorTurn(s, w, loadOk).next)
  {
    var rec := s.table[w];
    var s1 := s.(table := s.table[w := rec.(current := None)]);
    PutKeepsEggLogged(s, w, rec.(current := None));
    LoadKeepsEggLogged(s1, w, loadOk);
    match LoadModel(s1, w, loadOk)
    case None =>
    case Some(s2) => PutKeepsEggLogged(s2, w, s2.table[w].(state := Ready));
  }

  lemma EmptyTurnKeepsEggLogged(s: Sched, w: Worker, loadOk: bool)
    requires w in s.table && s.table[w].state == Empty && EggLogged(s)
    ensures EggLogged(EmptyTurn(s, w, loadOk).next)
  {
    if !(s.todo == [] && s.rerun == [] && s.exhausted) {
      LoadKeepsEggLogged(s, w, loadOk);
      match LoadModel(s, w, loadOk)
      case None => PutKeepsEggLogged(s, w, s.table[w].(state := Error));
      case Some(s1) => PutKeepsEggLogged(s1, w, s1.table[w].(state := Ready));
    }
  }

  /** A step keeps the transfer log exact: the egg goes to a worker only
      when its cache differs from the run's egg, and then the cache holds
      the run's egg. */
  lemma {:induction false} TurnKeepsEggLogged(s: Sched, w: Worker, stepping: bool, o: Outcome)
    requires w in s.table && EggLogged(s)
    ensures ServerReady(s, w, stepping, o).Ok? ==> EggLogged(ServerReady(s, w, stepping, o).value.next)
  {
    match s.table[w].state
    case Empty => EmptyTurnKeepsEggLogged(s, w, o.loadOk);
    case Ready =>
      var t := ReadyTurn(s, w, stepping, o.setting);
      EggLoggedFrame(s, t.next, w);
    case Complete => CompleteTurnKeepsEggLogged(s, w, o);
    case Error => ErrorTurnKeepsEggLogged(s, w, o.loadOk);
  }

  /** With the transfer log exact, no worker is sent the egg twice: a
      direct corollary of `EggLogged`; the proof that steps keep the log
      exact is `TurnKeepsEggLogged`. */
  lemma EggSentAtMostOnce(s: Sched, v: Worker)
    requires EggLogged(s)
    ensures multiset(s.transfers)[v] <= 1
  {
  }
}

=== FILE: repo.dfy ===
/**
  The pure decisions of the repository maintenance script: the `ls`-style
  permission string, the group-permission fixup, the lock and unlock
  decisions, and the search for a repository root over an abstract
  filesystem.
*/
module Repo {
  import opened Basics

  /** A file mode (`st_mode`): file type and permission bits, 16 bits wide. */
  type Mode = bv16

  const UserRead: Mode := 0x100
  const UserWrite: Mode := 0x80
  const UserExec: Mode := 0x40
  const GroupRead: Mode := 0x20
  const GroupWrite: Mode := 0x10
  const GroupExec: Mode := 0x8
  const OtherRead: Mode := 0x4
  const OtherWrite: Mode := 0x2
  const OtherExec: Mode := 0x1

  /** The nine permission bits and the group bits among them. */
  const PermMask: Mode := 0x1FF
  const GroupMask: Mode := 0x38
  const UserMask: Mode := 0x1C0

  /** The letter `ls -l` shows at position `i`: read, write and execute
      for user, group and other in turn. */
  function Letter(i: nat): char {
    if i % 3 == 0 then 'r' else if i % 3 == 1 then 'w' else 'x'
  }

  /** The permission bit shown at position `i` of the string. */
  function Mask(i: nat): Mode
    requires i < 9
  {
    if i == 0 then UserRead else if i == 1 then UserWrite else if i == 2 then UserExec
    else if i == 3 then GroupRead else if i == 4 then GroupWrite else if i == 5 then GroupExec
    else if i == 6 then OtherRead else if i == 7 then OtherWrite else OtherExec
  }

  function Flag(mode: Mode, bit: Mode, letter: char): char {
    if mode & bit != 0 then letter else '-'
  }

  /** `permission_bits`: the mode in `ls` style. */
  function PermissionBits(mode: Mode): (r: string)
    ensures |r| == 9
  {
    [Flag(mode, UserRead, 'r'), Flag(mode, UserWrite, 'w'), Flag(mode, UserExec, 'x'),
     Flag(mode, GroupRead, 'r'), Flag(mode, GroupWrite, 'w'), Flag(mode, GroupExec, 'x'),
     Flag(mode, OtherRead, 'r'), Flag(mode, OtherWrite, 'w'), Flag(mode, OtherExec, 'x')]
  }

  /** Position `i` of the string shows the letter of bit `i` when that bit
      is set, and `-` otherwise. */
  lemma PermissionBitsAt(mode: Mode, i: nat)
    requires i < 9
    ensures PermissionBits(mode)[i] == (if mode & Mask(i) != 0 then Letter(i) else '-')
  {
    var r := PermissionBits(mode);
    if i == 0 { assert r[0] == Flag(mode, UserRead, 'r'); }
    else if i == 1 { assert r[1] == Flag(mode, UserWrite, 'w'); }
    else if i == 2 { assert r[2] == Flag(mode, UserExec, 'x'); }
    else if i == 3 { assert r[3] == Flag(mode, GroupRead, 'r'); }
    else if i == 4 { assert r[4] == Flag(mode, GroupWrite, 'w'); }
    else if i == 5 { assert r[5] == Flag(mode, GroupExec, 'x'); }
    else if i == 6 { assert r[6] == Flag(mode, OtherRead, 'r'); }
    else if i == 7 { assert r[7] == Flag(mode, OtherWrite, 'w'); }
    else { assert r[8] == Flag(mode, OtherExec, 'x'); }
  }

  /** A string `permission_bits` can produce: each position holds its
      letter or `-`. */
  predicate WellFormedBits(s: string) {
    |s| == 9 && forall i :: 0 <= i < 9 ==> s[i] == Letter(i) || s[i] == '-'
  }

  /** The bit position `i` of an `ls`-style string shows. */
  function Shown(s: string, i: nat): Mode
    requires i < |s| && i < 9
  {
    if s[i] != '-' then Mask(i) else 0
  }

  /** The permission bits an `ls`-style string shows. */
  function ParseBits(s: string): (m: Mode)
    requires |s| == 9
    ensures m & !PermMask == 0
  {
    Shown(s, 0) | Shown(s, 1) | Shown(s, 2) | Shown(s, 3) | Shown(s, 4)
    | Shown(s, 5) | Shown(s, 6) | Shown(s, 7) | Shown(s, 8)
  }

  /** Bit `i` of the parsed mode is set exactly when position `i` is not
      `-`. */
  lemma ParseBitsAt(s: string, i: nat)
    requires |s| == 9 && i < 9
    ensures ParseBits(s) & Mask(i) == Shown(s, i)
  {
  }

  /** The nine permission bits, one by one, make up the mode's permission
      bits. */
  lemma PermBitsSplit(mode: Mode)
    ensures mode & PermMask
         == (mode & UserRead) | (mode & UserWrite) | (mode & UserExec)
          | (mode & GroupRead) | (mode & GroupWrite) | (mode & GroupExec)
          | (mode & OtherRead) | (mode & OtherWrite) | (mode & OtherExec)
  {
  }

  lemma ParseShown(s: string, mode: Mode)
    requires |s| == 9
    requires Shown(s, 0) == mode & UserRead && Shown(s, 1) == mode & UserWrite && Shown(s, 2) == mode & UserExec
    requires Shown(s, 3) == mode & GroupRead && Shown(s, 4) == mode & GroupWrite && Shown(s, 5) == mode & GroupExec
    requires Shown(s, 6) == mode & OtherRead && Shown(s, 7) == mode & OtherWrite && Shown(s, 8) == mode & OtherExec
    ensures ParseBits(s) == mode & PermMask
  {
    PermBitsSplit(mode);
  }

  /** The string shows exactly the nine permission bits of the mode and
      nothing else. */
  lemma PermissionBitsRoundTrip(mode: Mode)
    ensures WellFormedBits(PermissionBits(mode))
    ensures ParseBits(PermissionBits(mode)) == mode & PermMask
  {
    var s := PermissionBits(mode);
    forall i | 0 <= i < 9 ensures s[i] == Letter(i) || s[i] == '-' {
      PermissionBitsAt(mode, i);
    }
    PermissionBitsAt(mode, 0); PermissionBitsAt(mode, 1); PermissionBitsAt(mode, 2);
    PermissionBitsAt(mode, 3); PermissionBitsAt(mode, 4); PermissionBitsAt(mode, 5);
    PermissionBitsAt(mode, 6); PermissionBitsAt(mode, 7); PermissionBitsAt(mode, 8);
    ParseShown(s, mode);
  }

  /** Every well-formed string is the rendering of the mode it shows. */
  lemma ParseBitsRoundTrip(s: string)
    requires WellFormedBits(s)
    ensures PermissionBits(ParseBits(s)) == s
  {
    var m := ParseBits(s);
    forall i | 0 <= i < 9 ensures PermissionBits(m)[i] == s[i] {
      PermissionBitsAt(m, i);
      ParseBitsAt(s, i);
      assert s[i] == Letter(i) || s[i] == '-';
    }
  }

  /** The fixup of `do_fix`: every user permission is granted to the group
      as well. */
  function Fixup(mode: Mode): (r: Mode)
    ensures r == mode | ((mode & UserMask) >> 3)
  {
    var f1 := if mode & UserRead != 0 && mode & GroupRead == 0 then mode | GroupRead else mode;
    var f2 := if mode & UserWrite != 0 && mode & GroupWrite == 0 then f1 | GroupWrite else f1;
    if mode & UserExec != 0 && mode & GroupExec == 0 then f2 | GroupExec else f2
  }

  /** The fixup only adds bits: every bit of the mode is still set. */
  lemma FixupOnlyAdds(mode: Mode)
    ensures Fixup(mode) & mode == mode
  {
  }

  /** After the fixup the group may do whatever the user may do. */
  lemma FixupGrantsGroup(mode: Mode)
    ensures mode & UserRead != 0 ==> Fixup(mode) & GroupRead != 0
    ensures mode & UserWrite != 0 ==> Fixup(mode) & GroupWrite != 0
    ensures mode & UserExec != 0 ==> Fixup(mode) & GroupExec != 0
  {
  }

  /** The fixup touches the group bits only, and a group bit only when it
      was already set or the user has it. */
  lemma FixupOnlyGroup(mode: Mode)
    ensures Fixup(mode) & !GroupMask == mode & !GroupMask
    ensures mode & UserRead == 0 && mode & GroupRead == 0 ==> Fixup(mode) & GroupRead == 0
    ensures mode & UserWrite == 0 && mode & GroupWrite == 0 ==> Fixup(mode) & GroupWrite == 0
    ensures mode & UserExec == 0 && mode & GroupExec == 0 ==> Fixup(mode) & GroupExec == 0
  {
  }

  /** Fixing a fixed mode changes nothing. */
  lemma FixupIdempotent(mode: Mode)
    ensures Fixup(Fixup(mode)) == Fixup(mode)
  {
  }

  /** What `do_fix` does with one directory entry: the lines it prints and
      the mode it asks `chmod` for, if any. */
  datatype FixAction = FixAction(lines: seq<string>, chmod: Option<Mode>)

  /** The body of the per-entry loop of `do_fix`; `name` is the entry's
      name and `path` its full path. */
  function FixEntry(mode: Mode, name: string, path: string, verbose: bool): (r: FixAction)
    ensures r.chmod.Some? <==> Fixup(mode) != mode
    ensures r.chmod.Some? ==> r.chmod.value == Fixup(mode)
    ensures verbose ==> |r.lines| == 1
    ensures !verbose ==> |r.lines| == (if r.chmod.Some? then 1 else 0)
    ensures forall i :: 0 <= i < |r.lines| ==>
      r.lines[i] == (if verbose then "   " else "") + (if r.chmod.Some? then "fixing " else "")
                    + PermissionBits(mode) + " " + (if verbose then name else path)
  {
    var fixup := Fixup(mode);
    var lines :=
      if verbose then
        if fixup != mode then ["   fixing " + PermissionBits(mode) + " " + name]
        else ["   " + PermissionBits(mode) + " " + name]
      else if fixup != mode then ["fixing " + PermissionBits(mode) + " " + path]
      else [];
    FixAction(lines, if fixup != mode then Some(fixup) else None)
  }

  /** A fixed mode needs no second pass. */
  lemma FixEntryOnce(mode: Mode, name: string, path: string, verbose: bool)
    ensures FixEntry(Fixup(mode), name, path, verbose).chmod.None?
  {
    FixupIdempotent(mode);
  }

  /** One directory `os.walk` visits: its path and its entries, the
      sub-directories first and then the files. */
  datatype WalkDir = WalkDir(dirpath: string, names: seq<string>)

  /** Python's `s[n:]`: empty once `n` passes the end. */
  function Drop(s: string, n: nat): (r: string)
    ensures n <= |s| ==> s == s[..n] + r
    ensures n > |s| ==> r == ""
  {
    if n <= |s| then s[n..] else ""
  }

  /** `os.path.join` of a directory and a relative entry name. */
  function JoinName(dir: string, name: string): (r: string)
    ensures dir <= r && |r| >= |dir| + |name| && r[|r| - |name|..] == name
  {
    if dir != [] && dir[|dir| - 1] == '/' then dir + name else dir + "/" + name
  }

  /** The directory lines a verbose `do_fix` prints, as written: each
      directory is cut by the length of `path`, but the entry loop rebinds
      `path` to the last entry it joined, so from the second directory on
      the cut uses that entry's length instead of the root's. */
  function DirLinesAsWritten(path: string, walk: seq<WalkDir>): (r: seq<string>)
    ensures |r| == |walk|
    ensures walk != [] ==> r[0] == Drop(walk[0].dirpath, |path|)
    ensures |walk| >= 2 && walk[0].names != [] ==>
      var last := walk[0].names[|walk[0].names| - 1];
      r[1] == Drop(walk[1].dirpath, |JoinName(walk[0].dirpath, last)|)
    decreases |walk|
  {
    if walk == [] then []
    else
      var d := walk[0];
      var next := if d.names == [] then path else JoinName(d.dirpath, d.names[|d.names| - 1]);
      [Drop(d.dirpath, |path|)] + DirLinesAsWritten(next, walk[1..])
  }

  /** The directory lines as intended: every directory below the root is
      printed relative to the root. */
  function DirLines(root: string, walk: seq<WalkDir>): (r: seq<string>)
    ensures |r| == |walk|
    ensures forall k :: 0 <= k < |walk| && root <= walk[k].dirpath ==> root + r[k] == walk[k].dirpath
  {
    seq(|walk|, k requires 0 <= k < |walk| => Drop(walk[k].dirpath, |root|))
  }

  /** A root holding one sub-directory: the intended lines are the root's
      (empty) and `/sub`, but as written the second directory is cut by the
      length of `pkg/sub` and prints an empty line. */
  lemma DirLinesAsWrittenCutsWrongPrefix()
    ensures var walk := [WalkDir("pkg", ["sub"]), WalkDir("pkg/sub", [])];
      && DirLines("pkg", walk) == ["", "/sub"]
      && DirLinesAsWritten("pkg", walk) == ["", ""]
  {
    var walk := [WalkDir("pkg", ["sub"]), WalkDir("pkg/sub", [])];
    assert JoinName("pkg", "sub") == "pkg/sub";
    assert DirLinesAsWritten("pkg/sub", walk[1..]) == [""];
  }

  /** The lockfile's owner and modification time. */
  datatype Holder = Holder(user: string, mtime: string)

  /** The lock after an operation, its exit code and what it printed. */
  datatype Report = Report(lock: Option<Holder>, exit: nat, lines: seq<string>)

  /** `do_lock`: the lockfile is created, owned by the caller, only when
      there is none.  `createErr` is the failure of the exclusive create, if
      any. */
  function Lock(lock: Option<Holder>, me: string, now: string, createErr: Option<string>): (r: Report)
    ensures r.exit == 0 <==> lock.None? && createErr.None?
    ensures r.exit == 0 ==> r.lock == Some(Holder(me, now)) && r.lines == []
    ensures r.exit != 0 ==> r.exit == 1 && r.lock == lock && |r.lines| == 1
  {
    match lock
    case None =>
      (match createErr
       case None => Report(Some(Holder(me, now)), 0, [])
       case Some(err) => Report(None, 1, ["Cannot create lockfile: " + err]))
    case Some(h) => Report(lock, 1, ["Repository already locked by " + h.user + " at " + h.mtime])
  }

  /** `do_unlock`: the lockfile is removed only when it exists and belongs
      to the caller, or the removal is forced. */
  function Unlock(lock: Option<Holder>, me: string, force: bool, removeErr: Option<string>): (r: Report)
    ensures r.exit == 0 <==> lock.Some? && (lock.value.user == me || force) && removeErr.None?
    ensures r.exit == 0 ==> r.lock.None? && r.lines == []
    ensures r.exit != 0 ==> r.exit == 1 && r.lock == lock && |r.lines| == 1
    ensures lock.None? ==> r.lines == ["Repository is not locked"]
  {
    match lock
    case None => Report(None, 1, ["Repository is not locked"])
    case Some(h) =>
      if h.user == me || force then
        (match removeErr
         case None => Report(None, 0, [])
         case Some(err) => Report(lock, 1, ["Cannot remove lockfile: " + err]))
      else Report(lock, 1, ["Repository locked by " + h.user + " at " + h.mtime])
  }

  /** A lock taken by a user is released by that user's unlock, after
      which the repository can be locked again; meanwhile nobody else can
      lock it or, without forcing, unlock it. */
  lemma LockUnlockRoundTrip(me: string, other: string, now: string, later: string)
    requires other != me
    ensures var held := Lock(None, me, now, None).lock;
      && Lock(held, other, later, None).exit == 1
      && Unlock(held, other, false, None).lock == held
      && Unlock(held, other, true, None).lock.None?
      && Unlock(held, me, false, None) == Report(None, 0, [])
      && Lock(Unlock(held, me, false, None).lock, other, later, None).lock == Some(Holder(other, later))
  {
  }

  /** A path as a sequence of components, absolute or relative; the empty
      relative path is the empty string. */
  datatype Path = Path(absolute: bool, comps: seq<string>)

  /** A path is falsy when it is the empty string. */
  predicate EmptyPath(p: Path) {
    !p.absolute && p.comps == []
  }

  /** `os.path.dirname`: drop the last component; the root is its own
      parent and a single relative component has the empty string. */
  function Dirname(p: Path): (d: Path)
    ensures d.absolute == p.absolute
    ensures d == p <==> p.comps == []
    ensures p.comps != [] ==> d.comps == p.comps[..|p.comps| - 1]
  {
    if p.comps == [] then p else Path(p.absolute, p.comps[..|p.comps| - 1])
  }

  /** `os.path.join`: an absolute second part replaces the first. */
  function Join(base: Path, p: Path): (r: Path)
    ensures p.absolute ==> r == p
    ensures !p.absolute ==> r.absolute == base.absolute && r.comps == base.comps + p.comps
  {
    if p.absolute then p else Path(base.absolute, base.comps + p.comps)
  }

  /** The filesystem as `find_bzr` sees it: the paths that exist (`present`), the
      directories that hold a `.bzr` entry, and the working directory. */
  datatype FS = FS(present: set<Path>, bzr: set<Path>, cwd: Path)

  /** The body of the `while path:` loop of `find_bzr`. */
  function Walk(fs: FS, p: Path): (r: Option<Path>)
    decreases |p.comps|
  {
    if EmptyPath(p) then None
    else if p in fs.bzr then Some(p)
    else
      var d := Dirname(p);
      if d == p then None else Walk(fs, d)
  }

  /** `find_bzr`: the empty path stands for the working directory; a path
      that does not exist has no root. */
  function FindBzr(fs: FS, p: Path): Option<Path> {
    var start := if EmptyPath(p) then fs.cwd else p;
    if start !in fs.present then None else Walk(fs, start)
  }

  /** The directories the walk from `p` visits: `p` and its ancestors,
      down to the root for an absolute path and down to the first
      component for a relative one. */
  predicate Visited(a: Path, p: Path) {
    && a.absolute == p.absolute
    && a.comps <= p.comps
    && (p.absolute || |a.comps| >= 1)
  }

  /** The walk finds the deepest visited directory holding `.bzr`, and
      finds nothing exactly when no visited directory holds one. */
  lemma {:induction false} WalkFindsDeepest(fs: FS, p: Path)
    ensures Walk(fs, p).Some? ==>
      && Visited(Walk(fs, p).value, p) && Walk(fs, p).value in fs.bzr
      && forall a :: Visited(a, p) && |a.comps| > |Walk(fs, p).value.comps| ==> a !in fs.bzr
    ensures Walk(fs, p).None? <==> forall a :: Visited(a, p) ==> a !in fs.bzr
    decreases |p.comps|
  {
    if EmptyPath(p) || p in fs.bzr {
    } else {
      var d := Dirname(p);
      if d == p {
        forall a | Visited(a, p) ensures a !in fs.bzr {
          assert a.comps == [] == p.comps;
          assert a == p;
        }
      } else {
        WalkFindsDeepest(fs, d);
        forall a | Visited(a, p) && a != p ensures Visited(a, d) {
          assert a.comps != p.comps;
          PrefixOfShorter(a.comps, p.comps);
        }
        forall a | Visited(a, d) ensures Visited(a, p) {
        }
      }
    }
  }

  /** A proper prefix of a sequence is a prefix of the sequence without its
      last element. */
  lemma PrefixOfShorter(a: seq<string>, b: seq<string>)
    requires a <= b && a != b
    ensures a <= b[..|b| - 1]
  {
  }

  /** `find_bzr` in terms of the walk: where it starts, and that a missing
      start has no root. */
  lemma FindBzrFindsDeepest(fs: FS, p: Path)
    ensures var start := if EmptyPath(p) then fs.cwd else p;
      && (FindBzr(fs, p).Some? ==>
            && start in fs.present
            && Visited(FindBzr(fs, p).value, start) && FindBzr(fs, p).value in fs.bzr
            && forall a :: Visited(a, start) && |a.comps| > |FindBzr(fs, p).value.comps| ==> a !in fs.bzr)
      && (FindBzr(fs, p).None? <==> start !in fs.present || forall a :: Visited(a, start) ==> a !in fs.bzr)
  {
    var start := if EmptyPath(p) then fs.cwd else p;
    WalkFindsDeepest(fs, start);
  }

  /** The places `find_repository` looks, in order: the given path, the
      user's development area and the shared one. */
  function Candidates(repo: Path, user: string): (c: seq<Path>)
    ensures |c| == 3 && c[0] == repo
    ensures repo.absolute ==> c[1] == repo && c[2] == repo
  {
    [repo,
     Join(Path(true, ["OpenMDAO", "dev", user]), repo),
     Join(Path(true, ["OpenMDAO", "dev", "shared"]), repo)]
  }

  /** `find_repository`: `None` stands for "Cannot find repository!" and
      exit code 2. */
  function FindRepository(fs: FS, repo: Path, user: string): (r: Option<Path>)
    ensures r.None? <==> forall i :: 0 <= i < 3 ==> FindBzr(fs, Candidates(repo, user)[i]).None?
    ensures r.Some? ==> exists i :: 0 <= i < 3 && FindBzr(fs, Candidates(repo, user)[i]) == r
                          && forall j :: 0 <= j < i ==> FindBzr(fs, Candidates(repo, user)[j]).None?
  {
    var c := Candidates(repo, user);
    match FindBzr(fs, c[0])
    case Some(p) => Some(p)
    case None =>
      match FindBzr(fs, c[1])
      case Some(p) => Some(p)
      case None => FindBzr(fs, c[2])
  }

  /** `root` lies on the walk of `find_bzr` from `p`. */
  predicate StartedFrom(fs: FS, p: Path, root: Path) {
    var start := if EmptyPath(p) then fs.cwd else p;
    start in fs.present && Visited(root, start)
  }

  /** The root found is a directory holding `.bzr` that contains one of
      the candidates (or the working directory, for the empty path). */
  lemma FindRepositoryFindsRoot(fs: FS, repo: Path, user: string)
    ensures var r := FindRepository(fs, repo, user);
      r.Some? ==> r.value in fs.bzr && (exists i :: 0 <= i < 3 && StartedFrom(fs, Candidates(repo, user)[i], r.value))
  {
    var c := Candidates(repo, user);
    FindBzrFindsDeepest(fs, c[0]);
    FindBzrFindsDeepest(fs, c[1]);
    FindBzrFindsDeepest(fs, c[2]);
  }
}

=== FILE: runs.dfy ===
/**
  Properties of whole runs: what the start-up wave, the dispatch loop and
  the sequential loop keep invariant, and what a run records.
*/
module Runs {
  import opened Basics
  import opened Cases
  import opened Scheduler
  import opened Conservation
  import opened Invariants
  import opened Driver

  /** The state `_cleanup` leaves behind: nothing queued, nothing to
      retry, no workers and no transfers. */
  predicate Cleaned(s: Sched) {
    s.todo == [] && s.rerun == [] && s.table == map[] && s.transfers == []
  }

  /** A worker that is not in use is idle, in the empty or ready state. */
  predicate IdleQuiet(s: Sched) {
    forall v :: v in s.table && !s.table[v].inUse ==> s.table[v].state == Empty || s.table[v].state == Ready
  }

  /** Nothing is left to hand out unless a worker is still in use or a
      stop was requested. */
  predicate Settled(s: Sched) {
    s.stop || Busy(s) || (s.todo == [] && s.rerun == [] && s.exhausted)
  }

  /** The invariant of the concurrent run. */
  ghost predicate RunInv(s: Sched) {
    WellFormed(s) && IdleQuiet(s) && ExhaustedEmpty(s) && RetriesBounded(s) && EggLogged(s)
  }

  /** Every message is a reply: no server failed to start. */
  predicate NoStartFailures(events: seq<Event>) {
    forall i :: 0 <= i < |events| ==> events[i].Reply?
  }

  lemma RecordedBoundedTrans(a: Sched, b: Sched, n: nat)
    requires n <= |a.recorded| && a.recorded <= b.recorded
    requires RecordedBounded(a, n) && RecordedBounded(b, |a.recorded|)
    ensures RecordedBounded(b, n)
  {
    forall i | n <= i < |b.recorded| ensures Bounded(b.recorded[i]) {
      if i < |a.recorded| {
        assert b.recorded[i] == a.recorded[i];
      }
    }
  }

  /** Setting a worker's in-use flag changes nothing the invariant or the
      pool looks at, except idleness. */
  lemma MarkInUseKeeps(s: Sched, w: Worker, b: bool)
    requires w in s.table && RunInv(s)
    requires !b ==> s.table[w].state == Empty || s.table[w].state == Ready
    ensures RunInv(MarkInUse(s, w, b)) && Pool(MarkInUse(s, w, b)) == Pool(s)
  {
    var n := MarkInUse(s, w, b);
    PutKeepsEggLogged(s, w, s.table[w].(inUse := b));
    LiveIdsSame(s.table, w, s.table[w].(inUse := b));
    MarkInUseRows(s, w, b);
  }

  lemma MarkInUseRows(s: Sched, w: Worker, b: bool)
    requires w in s.table && WellFormed(s) && IdleQuiet(s) && RetriesBounded(s)
    requires !b ==> s.table[w].state == Empty || s.table[w].state == Ready
    ensures var n := MarkInUse(s, w, b);
      WellFormed(n) && IdleQuiet(n) && RetriesBounded(n)
  {
    var n := MarkInUse(s, w, b);
    forall v | v in n.table
      ensures n.table[v].state == s.table[v].state && n.table[v].current == s.table[v].current
      ensures v != w ==> n.table[v].inUse == s.table[v].inUse
    {
    }
  }

  /** A step of a worker in use leaves every idle worker idle. */
  lemma TurnKeepsIdleQuiet(s: Sched, w: Worker, o: Outcome)
    requires w in s.table && s.table[w].inUse && IdleQuiet(s)
    ensures ServerReady(s, w, false, o).Ok? ==> IdleQuiet(ServerReady(s, w, false, o).value.next)
  {
  }

  /** One step of a worker in use keeps the invariant. */
  lemma TurnKeepsRunInv(s: Sched, w: Worker, o: Outcome)
    requires w in s.table && s.table[w].inUse && RunInv(s)
    ensures ServerReady(s, w, false, o).Ok? ==> RunInv(ServerReady(s, w, false, o).value.next)
  {
    TurnKeepsWellFormed(s, w, false, o);
    TurnKeepsRetriesBounded(s, w, false, o);
    TurnKeepsExhaustedEmpty(s, w, false, o);
    TurnKeepsEggLogged(s, w, false, o);
    TurnKeepsIdleQuiet(s, w, o);
  }

  /** One step of a worker in use keeps the invariant and the pool, only
      appends bounded cases to the record, and retires only an idle
      worker. */
  lemma TickNext(s: Sched, w: Worker, o: Outcome)
    requires w in s.table && s.table[w].inUse && RunInv(s)
    ensures Tick(s, w, false, o).Ok? ==>
      var t := Tick(s, w, false, o).value;
      && RunInv(t.next) && Pool(t.next) == Pool(s)
      && s.recorded <= t.next.recorded && RecordedBounded(t.next, |s.recorded|)
      && (s.stop ==> t.next.stop)
      && (!t.inUse ==> t.next.table[w].state == Empty || t.next.table[w].state == Ready)
  {
    var s1 := s.(stop := s.stop || o.stopRequest);
    assert RunInv(s1) && Pool(s1) == Pool(s);
    TurnKeepsRunInv(s1, w, o);
    TurnKeepsRetriesBounded(s1, w, false, o);
    TurnConserves(s1, w, false, o);
  }

  /** After a step of the dispatch loop either a worker is still in use,
      a stop was requested, or nothing is left to hand out. */
  lemma TickSettled(s: Sched, w: Worker, o: Outcome)
    requires w in s.table
    ensures Tick(s, w, false, o).Ok? ==>
      var t := Tick(s, w, false, o).value;
      Settled(MarkInUse(t.next, w, t.inUse))
  {
    var r := Tick(s, w, false, o);
    if r.Ok? {
      var n := MarkInUse(r.value.next, w, r.value.inUse);
      if r.value.inUse {
        assert n.table[w].inUse;
      }
    }
  }

  /** One reply handled by the dispatch loop keeps the invariant and the
      pool of cases, only appends to the record, and leaves the run
      settled. */
  lemma TickKeeps(s: Sched, w: Worker, o: Outcome)
    requires w in s.table && s.table[w].inUse && RunInv(s)
    ensures Tick(s, w, false, o).Ok? ==>
      var n := MarkInUse(Tick(s, w, false, o).value.next, w, Tick(s, w, false, o).value.inUse);
      && RunInv(n) && Pool(n) == Pool(s) && Settled(n)
      && s.recorded <= n.recorded && RecordedBounded(n, |s.recorded|)
      && (s.stop ==> n.stop)
  {
    var r := Tick(s, w, false, o);
    if r.Ok? {
      var t := r.value;
      TickNext(s, w, o);
      TickSettled(s, w, o);
      MarkInUseKeeps(t.next, w, t.inUse);
    }
  }

  /** Handling one message keeps the invariant and the pool of cases;
      a reply leaves the run settled. */
  lemma HandleKeeps(s: Sched, e: Event)
    requires RunInv(s)
    ensures Handle(s, e).Ok? ==>
      var n := Handle(s, e).value;
      && RunInv(n) && Pool(n) == Pool(s)
      && s.recorded <= n.recorded && RecordedBounded(n, |s.recorded|)
      && (s.stop ==> n.stop)
      && (e.Reply? && Settled(s) ==> Settled(n))
  {
    match e
    case StartFailed(w) =>
      if w in s.table && s.table[w].inUse && s.table[w].state == Empty {
        MarkInUseKeeps(s, w, false);
      }
    case Reply(w, o) =>
      if w in s.table && s.table[w].inUse {
        TickKeeps(s, w, o);
      }
  }

  /** The dispatch loop keeps the invariant and the pool of cases: no case
      is lost or duplicated while messages are handled, and the record is
      only appended to. */
  lemma {:induction false} DispatchKeeps(s: Sched, events: seq<Event>)
    requires RunInv(s)
    ensures var r := Dispatch(s, events);
      !r.Fault? ==>
        && RunInv(r.s) && Pool(r.s) == Pool(s)
        && s.recorded <= r.s.recorded && RecordedBounded(r.s, |s.recorded|)
    decreases |events|
  {
    if Busy(s) && events != [] {
      HandleKeeps(s, events[0]);
      DispatchUnfold(s, events);
      var h := Handle(s, events[0]);
      if h.Ok? {
        var n := h.value;
        DispatchKeeps(n, events[1..]);
        var r := Dispatch(n, events[1..]);
        if !r.Fault? {
          assert Pool(r.s) == Pool(n) == Pool(s);
          RecordedBoundedTrans(n, r.s, |s.recorded|);
        }
      }
    }
  }

  /** Without start-up failures a settled run stays settled, and a stop
      request is never forgotten. */
  lemma {:induction false} DispatchSettles(s: Sched, events: seq<Event>)
    requires RunInv(s)
    ensures var r := Dispatch(s, events);
      !r.Fault? ==>
        && (s.stop ==> r.s.stop)
        && (Settled(s) && NoStartFailures(events) ==> Settled(r.s))
    decreases |events|
  {
    if Busy(s) && events != [] {
      HandleKeeps(s, events[0]);
      DispatchUnfold(s, events);
      var h := Handle(s, events[0]);
      if h.Ok? {
        var n := h.value;
        assert RunInv(n);
        DispatchSettles(n, events[1..]);
        if NoStartFailures(events) {
          assert events[0].Reply?;
          assert NoStartFailures(events[1..]) by {
            forall i | 0 <= i < |events| - 1 ensures events[1..][i].Reply? {
              assert events[1..][i] == events[i + 1];
            }
          }
        }
      }
    }
  }

  /** One turn of the dispatch loop, in terms of the handled message. */
  lemma DispatchUnfold(s: Sched, events: seq<Event>)
    requires Busy(s) && events != []
    ensures var h := Handle(s, events[0]);
      && (h.Err? ==> Dispatch(s, events).Fault?)
      && (h.Ok? ==> Dispatch(s, events) == Dispatch(h.value, events[1..]))
  {
  }

  lemma CancelSub(a: multiset<CaseId>, b: multiset<CaseId>, x: multiset<CaseId>)
    requires a + x <= b + x
    ensures a <= b
  {
    forall i ensures a[i] <= b[i] {
      assert (a + x)[i] <= (b + x)[i];
    }
  }

  /** After `_cleanup` the pool holds the cases still to come and the
      cases recorded so far. */
  lemma CleanedPool(s: Sched)
    requires Cleaned(s)
    ensures Pool(s) == Ids(s.source) + Ids(s.recorded)
  {
    assert LiveIds(s.table) == multiset{};
  }

  /** Once no worker is busy, no stop was requested and the run is
      settled, every case of the pool has been recorded. */
  lemma FinishedPool(s: Sched)
    requires RunInv(s) && Settled(s) && !Busy(s) && !s.stop
    ensures Pool(s) == Ids(s.recorded)
  {
    forall v | v in s.table ensures s.table[v].state != Complete {
      assert !s.table[v].inUse;
    }
    LiveIdsNone(s.table);
  }

  /** The cases a run appended to the record, given how the pool moved. */
  lemma NewRecords(s: Sched, r: Sched)
    requires s.recorded <= r.recorded
    ensures Ids(r.recorded) == Ids(s.recorded) + Ids(r.recorded[|s.recorded|..])
  {
    assert r.recorded == s.recorded + r.recorded[|s.recorded|..];
    IdsAppend(s.recorded, r.recorded[|s.recorded|..]);
  }

  /** The start-up wave from a cleaned-up state establishes the run
      invariant, moves cases only from the iterator to `todo`, and leaves
      the run settled. */
  lemma StartKeeps(s: Sched, maxServers: int)
    requires Cleaned(s) && !s.exhausted && !s.stop
    ensures Start(s, maxServers).Ok? ==>
      var n := Start(s, maxServers).value.s;
      && RunInv(n) && Settled(n) && Pool(n) == Pool(s)
      && n.recorded == s.recorded && !n.stop
  {
    if maxServers > 0 {
      StartLoopPulls(s, 0, maxServers);
      StartRows(s, maxServers);
      StartPool(s, maxServers);
      StartSettled(s, maxServers);
    }
  }

  /** From a cleaned-up state every row of the wave is a freshly started
      server. */
  lemma StartAllStarted(s: Sched, max: nat)
    requires Cleaned(s) && 0 < max
    ensures forall v :: v in StartLoop(s, 0, max).s.table ==> StartLoop(s, 0, max).s.table[v] == Started
  {
    StartLoopRegisters(s, 0, max);
  }

  lemma StartRows(s: Sched, max: nat)
    requires Cleaned(s) && !s.exhausted && 0 < max
    ensures RunInv(StartLoop(s, 0, max).s)
  {
    var n := StartLoop(s, 0, max).s;
    StartAllStarted(s, max);
    StartLoopPulls(s, 0, max);
    assert EggLogged(n);
  }

  lemma StartPool(s: Sched, max: nat)
    requires Cleaned(s) && !s.exhausted && 0 < max
    ensures Pool(StartLoop(s, 0, max).s) == Pool(s)
  {
    var n := StartLoop(s, 0, max).s;
    StartNoneLive(s, max);
    StartMoves(s, max);
    StartLoopPulls(s, 0, max);
    assert n.rerun == [] && n.recorded == s.recorded;
    CleanedPool(s);
  }

  lemma StartNoneLive(s: Sched, max: nat)
    requires Cleaned(s) && 0 < max
    ensures LiveIds(StartLoop(s, 0, max).s.table) == multiset{}
  {
    var n := StartLoop(s, 0, max).s;
    StartAllStarted(s, max);
    forall v | v in n.table ensures n.table[v].state != Complete {
      assert n.table[v] == Started;
    }
    LiveIdsNone(n.table);
  }

  /** The wave only moves cases from the iterator to `todo`. */
  lemma StartMoves(s: Sched, max: nat)
    requires Cleaned(s) && 0 < max
    ensures Ids(StartLoop(s, 0, max).s.source) + Ids(StartLoop(s, 0, max).s.todo) == Ids(s.source)
  {
    var n := StartLoop(s, 0, max).s;
    StartLoopPulls(s, 0, max);
    var k := |s.source| - |n.source|;
    IdsSplit(s.source, k);
    assert n.todo == s.source[..k] && n.source == s.source[k..];
  }

  lemma StartSettled(s: Sched, max: nat)
    requires Cleaned(s) && !s.exhausted && !s.stop && 0 < max
    ensures Settled(StartLoop(s, 0, max).s)
  {
    var r := StartLoop(s, 0, max);
    StartLoopRegisters(s, 0, max);
    StartLoopPulls(s, 0, max);
    if r.started > 0 {
      assert r.s.table[Remote(r.started)].inUse;
    }
  }

  /** A run that started cleaned and kept the pool recorded nothing
      but cases of its iterator, each at most once. */
  lemma NoneDuplicated(s: Sched, d: Sched)
    requires Cleaned(s) && s.recorded <= d.recorded && Pool(d) == Pool(s)
    ensures Ids(d.recorded[|s.recorded|..]) <= Ids(s.source)
  {
    NewRecords(s, d);
    CleanedPool(s);
    assert Ids(d.recorded) <= Pool(d);
    CancelSub(Ids(d.recorded[|s.recorded|..]), Ids(s.source), Ids(s.recorded));
  }

  /** A run that started cleaned, kept the pool and ended with every
      case of the pool recorded has recorded its iterator exactly. */
  lemma AllRecorded(s: Sched, d: Sched)
    requires Cleaned(s) && s.recorded <= d.recorded && Pool(d) == Pool(s) && Pool(d) == Ids(d.recorded)
    ensures Ids(d.recorded[|s.recorded|..]) == Ids(s.source)
  {
    NewRecords(s, d);
    CleanedPool(s);
    assert Ids(d.recorded[|s.recorded|..]) + Ids(s.recorded) == Ids(s.source) + Ids(s.recorded);
    Cancel(Ids(d.recorded[|s.recorded|..]), Ids(s.source), Ids(s.recorded));
  }

  /** Cases are never duplicated: whatever the replies and whatever
      servers failed to start, a concurrent run records each case of the
      iterator at most once, within its retry limit. */
  lemma ConcurrentRunRecordsAtMostOnce(s: Sched, maxServers: int, events: seq<Event>)
    requires Cleaned(s)
    ensures var r := ResumeConcurrent(s, maxServers, events);
      r.Completed? || r.Stopped? || r.Pending? ==>
        && s.recorded <= r.s.recorded
        && Ids(r.s.recorded[|s.recorded|..]) <= Ids(s.source)
        && RecordedBounded(r.s, |s.recorded|)
  {
    var s0 := s.(stop := false);
    if !s0.exhausted && maxServers > 0 {
      StartKeeps(s0, maxServers);
      var n := Start(s0, maxServers).value.s;
      DispatchKeeps(n, events);
      var d := Dispatch(n, events);
      if !d.Fault? {
        assert Pool(d.s) == Pool(n) == Pool(s0) == Pool(s);
        NoneDuplicated(s, d.s);
      }
    }
  }

  /** Case conservation: when no server fails to start, a concurrent run
      that completes has recorded every case of the iterator exactly
      once. */
  lemma ConcurrentRunRecordsEveryCase(s: Sched, maxServers: int, events: seq<Event>)
    requires Cleaned(s) && NoStartFailures(events)
    ensures var r := ResumeConcurrent(s, maxServers, events);
      r.Completed? ==>
        s.recorded <= r.s.recorded && Ids(r.s.recorded[|s.recorded|..]) == Ids(s.source)
  {
    var s0 := s.(stop := false);
    if !s0.exhausted && maxServers > 0 {
      StartKeeps(s0, maxServers);
      var n := Start(s0, maxServers).value.s;
      DispatchKeeps(n, events);
      DispatchSettles(n, events);
      var d := Dispatch(n, events);
      if d.Done? && !d.s.stop {
        assert RunInv(d.s) && Settled(d.s) && !Busy(d.s);
        FinishedPool(d.s);
        assert Pool(d.s) == Pool(n) == Pool(s0) == Pool(s);
        AllRecorded(s, d.s);
        assert ResumeConcurrent(s, maxServers, events) == Finish(d.s);
      }
    }
  }

  /** `execute` on the concurrent path records each case of the new
      iterator exactly once when it completes. */
  lemma ExecuteConcurrentRecordsEveryCase(s: Sched, cases: seq<Case>, maxServers: int, events: seq<Event>)
    requires NoStartFailures(events)
    ensures var r := ExecuteConcurrent(s, cases, maxServers, events);
      r.Completed? ==>
        s.recorded <= r.s.recorded && Ids(r.s.recorded[|s.recorded|..]) == Ids(cases)
  {
    ConcurrentRunRecordsEveryCase(Setup(s, cases), maxServers, events);
  }

  /** When the only server fails to start, the case pulled for it stays
      in `todo` and is dropped by the final cleanup: the run completes
      without raising and records nothing, and the iterator a later
      `resume` would continue starts after that case. */
  lemma StartupFailureDropsCases(cfg: Config, cases: seq<Case>, rec: seq<Case>)
    requires cases != []
    ensures var s := Sched(cfg, cases, false, [], [], map[], rec, [], false);
      var r := ResumeConcurrent(s, 1, [StartFailed(Remote(1))]);
      r.Completed? && r.s.recorded == rec && r.s.source == cases[1..] && r.s.todo == [] && !r.s.exhausted
  {
    var s := Sched(cfg, cases, false, [], [], map[], rec, [], false);
    var w := StartLoop(s, 0, 1);
    var s1 := Register(s.(todo := [cases[0]], source := cases[1..]), 1);
    assert w == Wave(s1, 1);
    assert Busy(s1) by { assert s1.table[Remote(1)].inUse; }
    var s2 := MarkInUse(s1, Remote(1), false);
    assert Handle(s1, StartFailed(Remote(1))) == Ok(s2);
    assert !Busy(s2) by {
      forall v | v in s2.table ensures !s2.table[v].inUse {
        assert v == Remote(1);
      }
    }
    assert Dispatch(s1, [StartFailed(Remote(1))]) == Dispatch(s2, []);
  }

  /** Each worker is sent the run's egg at most once over a whole
      concurrent run. */
  lemma EggSentOncePerRun(s: Sched, maxServers: int, events: seq<Event>, v: Worker)
    requires Cleaned(s) && !s.exhausted && !s.stop && maxServers > 0
    ensures var d := Dispatch(Start(s, maxServers).value.s, events);
      !d.Fault? ==> multiset(d.s.transfers)[v] <= 1
  {
    StartKeeps(s, maxServers);
    DispatchKeeps(Start(s, maxServers).value.s, events);
    var d := Dispatch(Start(s, maxServers).value.s, events);
    if !d.Fault? {
      EggSentAtMostOnce(d.s, v);
    }
  }

  /** The invariant of the sequential run between steps: the local
      worker is the only one and it is idle, and nothing is queued unless
      a stop was requested. */
  predicate SeqInv(s: Sched) {
    && WellFormed(s) && ExhaustedEmpty(s) && RetriesBounded(s)
    && (forall v :: v in s.table ==> v == Local)
    && (Local in s.table ==> s.table[Local].state == Empty || s.table[Local].state == Ready)
    && (!s.stop ==> s.todo == [] && s.rerun == [])
  }

  /** One stepping call of `_server_ready` on the local worker. */
  lemma LocalTickKeeps(s: Sched, o: Outcome)
    requires Local in s.table && WellFormed(s) && ExhaustedEmpty(s) && RetriesBounded(s)
    ensures Tick(s, Local, true, o).Ok? ==>
      var n := Tick(s, Local, true, o).value.next;
      && WellFormed(n) && ExhaustedEmpty(n) && RetriesBounded(n)
      && Pool(n) == Pool(s) && s.recorded <= n.recorded && RecordedBounded(n, |s.recorded|)
  {
    var s1 := s.(stop := s.stop || o.stopRequest);
    TurnKeepsWellFormed(s1, Local, true, o);
    TurnKeepsRetriesBounded(s1, Local, true, o);
    TurnKeepsExhaustedEmpty(s1, Local, true, o);
    TurnConserves(s1, Local, true, o);
    assert Pool(s1) == Pool(s);
  }

  /** Driving the local worker neither pulls from the iterator nor adds
      workers. */
  lemma {:induction false} DriveLocalFrame(s: Sched, outs: seq<Outcome>)
    requires Local in s.table
    ensures var r := DriveLocal(s, outs);
      !r.Fault? ==>
        r.s.source == s.source && r.s.exhausted == s.exhausted && r.s.table.Keys == s.table.Keys
    decreases |outs|
  {
    if outs != [] {
      match Tick(s, Local, true, outs[0])
      case Err(_) =>
      case Ok(t) => if t.inUse { DriveLocalFrame(t.next, outs[1..]); }
    }
  }

  /** Driving the local worker keeps the slots well formed and the pool
      of cases, and only appends to the record. */
  lemma {:induction false} DriveLocalKeeps(s: Sched, outs: seq<Outcome>)
    requires Local in s.table && WellFormed(s) && ExhaustedEmpty(s) && RetriesBounded(s)
    ensures var r := DriveLocal(s, outs);
      !r.Fault? ==>
        && WellFormed(r.s) && ExhaustedEmpty(r.s) && RetriesBounded(r.s)
        && Pool(r.s) == Pool(s) && s.recorded <= r.s.recorded && RecordedBounded(r.s, |s.recorded|)
    decreases |outs|
  {
    if outs != [] {
      LocalTickKeeps(s, outs[0]);
      match Tick(s, Local, true, outs[0])
      case Err(_) =>
      case Ok(t) =>
        if t.inUse {
          DriveLocalKeeps(t.next, outs[1..]);
          var r := DriveLocal(t.next, outs[1..]);
          if !r.Fault? {
            assert Pool(r.s) == Pool(t.next) == Pool(s);
            RecordedBoundedTrans(t.next, r.s, |s.recorded|);
          }
        }
    }
  }

  /** When the local worker retires it is idle, and unless a stop was
      requested nothing is left queued. */
  lemma {:induction false} DriveLocalEnds(s: Sched, outs: seq<Outcome>)
    requires Local in s.table
    ensures var r := DriveLocal(s, outs);
      r.Done? ==>
        && Local in r.s.table
        && (r.s.table[Local].state == Empty || r.s.table[Local].state == Ready)
        && (!r.s.stop ==> r.s.todo == [] && r.s.rerun == [])
    decreases |outs|
  {
    if outs != [] {
      match Tick(s, Local, true, outs[0])
      case Err(_) =>
      case Ok(t) => if t.inUse { DriveLocalEnds(t.next, outs[1..]); }
    }
  }

  /** Pulling and resetting the local worker keeps the pool of cases. */
  lemma PrepareConserves(s: Sched)
    requires SeqInv(s) && !s.stop && (s.source != [] || s.rerun != [])
    ensures var n := ResetLocal(Pull(s));
      && Pool(n) == Pool(s) && n.recorded == s.recorded
      && WellFormed(n) && ExhaustedEmpty(n) && RetriesBounded(n)
      && (forall v :: v in n.table ==> v == Local)
  {
    PullConserves(s);
    ResetConserves(Pull(s));
  }

  /** The pull of `step` conserves the pool. */
  lemma PullConserves(s: Sched)
    requires s.source != [] || s.rerun != []
    ensures Pool(Pull(s)) == Pool(s)
  {
    if s.source != [] {
      PopSource(s);
      var p := Pull(s);
      IdsSnoc(s.todo, s.source[0]);
      assert Pool(p) == Pool(s.(source := s.source[1..])) + multiset{s.source[0].id};
    }
  }

  /** Resetting an idle local worker conserves the pool and the
      sequential invariant's row conditions. */
  lemma ResetConserves(p: Sched)
    requires WellFormed(p) && ExhaustedEmpty(p) && RetriesBounded(p)
    requires forall v :: v in p.table ==> v == Local
    requires Local in p.table ==> p.table[Local].state == Empty || p.table[Local].state == Ready
    ensures var n := ResetLocal(p);
      && Pool(n) == Pool(p) && n.recorded == p.recorded
      && WellFormed(n) && ExhaustedEmpty(n) && RetriesBounded(n)
      && (forall v :: v in n.table ==> v == Local)
  {
    var n := ResetLocal(p);
    LiveIdsPut(p.table, Local, n.table[Local]);
    assert n.table == p.table[Local := n.table[Local]];
    if Local in p.table {
      assert Live(p.table[Local]) == multiset{};
    }
  }

  /** One step from a quiet state keeps the sequential invariant and the
      pool of cases, and only appends to the record. */
  lemma StepKeeps(s: Sched, outs: seq<Outcome>)
    requires SeqInv(s) && !s.exhausted && !s.stop
    ensures var r := Step(s, [], outs);
      && (!r.Fault? ==>
            Pool(r.s) == Pool(s) && s.recorded <= r.s.recorded && RecordedBounded(r.s, |s.recorded|))
      && (r.Done? || r.Exhausted? ==> SeqInv(r.s))
  {
    assert s.(stop := false) == s;
    if s.source != [] || s.rerun != [] {
      var n := ResetLocal(Pull(s));
      PrepareConserves(s);
      DriveLocalFrame(n, outs);
      DriveLocalKeeps(n, outs);
      DriveLocalEnds(n, outs);
      assert RecordedBounded(n, |s.recorded|);
    }
  }

  /** Conserving the pool and appending bounded records compose. */
  lemma KeepsTrans(a: Sched, b: Sched, c: Sched)
    requires Pool(b) == Pool(a) && a.recorded <= b.recorded && RecordedBounded(b, |a.recorded|)
    requires Pool(c) == Pool(b) && b.recorded <= c.recorded && RecordedBounded(c, |b.recorded|)
    ensures Pool(c) == Pool(a) && a.recorded <= c.recorded && RecordedBounded(c, |a.recorded|)
  {
    RecordedBoundedTrans(b, c, |a.recorded|);
  }

  /** One turn of the sequential loop, in terms of the step's result. */
  lemma SeqLoopUnfold(s: Sched, steps: seq<seq<Outcome>>)
    requires !(s.exhausted || s.stop) && steps != []
    ensures var st := Step(s, [], steps[0]);
      && (st.Done? ==> SeqLoop(s, steps) == SeqLoop(st.s, steps[1..]))
      && (st.Exhausted? ==> SeqLoop(s, steps) == Done(st.s))
      && (st.Unfinished? ==> SeqLoop(s, steps) == Unfinished(st.s))
      && (st.Fault? ==> SeqLoop(s, steps).Fault?)
  {
  }

  /** The sequential loop keeps the pool of cases and only appends to the
      record. */
  lemma {:induction false} SeqLoopKeeps(s: Sched, steps: seq<seq<Outcome>>)
    requires SeqInv(s)
    ensures var r := SeqLoop(s, steps);
      !r.Fault? ==>
        Pool(r.s) == Pool(s) && s.recorded <= r.s.recorded && RecordedBounded(r.s, |s.recorded|)
    decreases |steps|
  {
    if !(s.exhausted || s.stop) && steps != [] {
      var st := Step(s, [], steps[0]);
      StepKeeps(s, steps[0]);
      SeqLoopUnfold(s, steps);
      if st.Done? {
        var s1 := st.s;
        assert SeqInv(s1);
        SeqLoopKeeps(s1, steps[1..]);
        var r := SeqLoop(s1, steps[1..]);
        if !r.Fault? {
          KeepsTrans(s, s1, r.s);
        }
      }
    }
  }

  /** The sequential loop, when it ends normally, ends quiet with the
      iterator exhausted or a stop requested. */
  lemma {:induction false} SeqLoopEnds(s: Sched, steps: seq<seq<Outcome>>)
    requires SeqInv(s)
    ensures var r := SeqLoop(s, steps);
      r.Done? ==> SeqInv(r.s) && (r.s.exhausted || r.s.stop)
    decreases |steps|
  {
    if !(s.exhausted || s.stop) && steps != [] {
      var st := Step(s, [], steps[0]);
      StepKeeps(s, steps[0]);
      SeqLoopUnfold(s, steps);
      if st.Done? {
        SeqLoopEnds(st.s, steps[1..]);
      }
    }
  }

  /** A sequential run that ends with the iterator exhausted and no stop
      request has recorded its whole pool. */
  lemma SeqFinishedPool(s: Sched)
    requires SeqInv(s) && s.exhausted && !s.stop
    ensures Pool(s) == Ids(s.recorded)
  {
    forall v | v in s.table ensures s.table[v].state != Complete {
      assert v == Local;
    }
    LiveIdsNone(s.table);
  }

  /** A sequential run records each case of the iterator at most once,
      within its retry limit. */
  lemma SequentialRunRecordsAtMostOnce(s: Sched, steps: seq<seq<Outcome>>)
    requires Cleaned(s)
    ensures var r := ResumeSequential(s, steps);
      r.Completed? || r.Stopped? || r.Pending? ==>
        && s.recorded <= r.s.recorded
        && Ids(r.s.recorded[|s.recorded|..]) <= Ids(s.source)
        && RecordedBounded(r.s, |s.recorded|)
  {
    var s0 := s.(stop := false);
    if !s0.exhausted {
      SeqLoopKeeps(s0, steps);
      var d := SeqLoop(s0, steps);
      if !d.Fault? {
        assert Pool(d.s) == Pool(s0) == Pool(s);
        NoneDuplicated(s, d.s);
      }
    }
  }

  /** Case conservation on the sequential path: a run that completes has
      recorded every case of the iterator exactly once. */
  lemma SequentialRunRecordsEveryCase(s: Sched, steps: seq<seq<Outcome>>)
    requires Cleaned(s)
    ensures var r := ResumeSequential(s, steps);
      r.Completed? ==>
        s.recorded <= r.s.recorded && Ids(r.s.recorded[|s.recorded|..]) == Ids(s.source)
  {
    var s0 := s.(stop := false);
    if !s0.exhausted {
      SeqLoopKeeps(s0, steps);
      SeqLoopEnds(s0, steps);
      var d := SeqLoop(s0, steps);
      if d.Done? && !d.s.stop {
        assert SeqInv(d.s) && d.s.exhausted;
        SeqFinishedPool(d.s);
        assert Pool(d.s) == Pool(s0) == Pool(s);
        AllRecorded(s, d.s);
        assert ResumeSequential(s, steps) == Finish(d.s);
      }
    }
  }

  /** The sequential and the concurrent path agree: when both complete
      from the same state, they have recorded the same cases. */
  lemma ModesAgree(s: Sched, maxServers: int, events: seq<Event>, steps: seq<seq<Outcome>>)
    requires Cleaned(s) && NoStartFailures(events)
    ensures var c := ResumeConcurrent(s, maxServers, events);
      var q := ResumeSequential(s, steps);
      c.Completed? && q.Completed? ==>
        s.recorded <= c.s.recorded && s.recorded <= q.s.recorded &&
        Ids(c.s.recorded[|s.recorded|..]) == Ids(q.s.recorded[|s.recorded|..])
  {
    ConcurrentRunRecordsEveryCase(s, maxServers, events);
    SequentialRunRecordsEveryCase(s, steps);
  }

  /** `step` evaluates at most one new case: the iterator it works on
      (a fresh one over `cases` when the previous had run out) loses at
      most its first case. */
  lemma StepPullsAtMostOne(s: Sched, cases: seq<Case>, outs: seq<Outcome>)
    ensures var src := if s.exhausted then cases else s.source;
      var r := Step(s, cases, outs);
      r.Done? || r.Unfinished? ==> r.s.source == (if src == [] then [] else src[1..])
  {
    var s0 := s.(stop := false);
    var s1 := if s0.exhausted then Setup(s0, cases) else s0;
    if s1.source != [] || s1.rerun != [] {
      DriveLocalFrame(ResetLocal(Pull(s1)), outs);
    }
  }
}

=== FILE: scheduler.dfy ===
/**
  The per-worker state machine of the case-iterator driver.

  The driver keeps, per run, a FIFO of cases pulled during worker startup
  (`todo`), a FIFO of cases to retry (`rerun`), the remaining cases of the
  case iterator (`source`, with `exhausted` standing for `_iter is None`),
  and a table of workers.  Each reply from a worker drives that worker one
  step through `ServerReady`.  Everything the coordinator learns from the
  outside world during a step (whether a load raised, whether setting the
  inputs raised, the exception of the model run, the values of the outputs,
  a stop request) is passed in as an `Outcome`.
*/
module Scheduler {
  import opened Basics
  import opened Cases

  /** The four worker states. */
  datatype WState = Empty | Ready | Complete | Error

  /** `Local` is the in-process worker of the sequential path (the Python
      key `None`); `Remote(n)` is the n-th server started by a run. */
  datatype Worker = Local | Remote(n: nat)

  /** An abstract identity of the model egg of a run. */
  type EggId = nat

  /** One row of the worker tables: state, case slot, in-use flag and the
      egg the worker has cached. */
  datatype WorkerRec = WorkerRec(state: WState, current: Option<Case>, inUse: bool, egg: Option<EggId>)

  /** Driver settings that stay fixed during a run. */
  datatype Config = Config(maxRetries: nat, reloadModel: bool, egg: EggId, pathname: string)

  /** The scheduler state.  `recorded` is the sequence of cases handed to
      the recorder; `transfers` logs the workers the egg was sent to. */
  datatype Sched = Sched(
    cfg: Config,
    source: seq<Case>,
    exhausted: bool,
    todo: seq<Case>,
    rerun: seq<Case>,
    table: map<Worker, WorkerRec>,
    recorded: seq<Case>,
    transfers: seq<Worker>,
    stop: bool)

  /** What happened while the events and the inputs of a case were set. */
  datatype SetOutcome =
    | SetOk
    | EventSetFailed(event: string, err: string)
    | InputSetFailed(name: string, err: string)

  /** The outside world's answers during one step of one worker. */
  datatype Outcome = Outcome(
    stopRequest: bool,
    loadOk: bool,
    setting: SetOutcome,
    execError: Option<string>,
    fetch: (string, Option<int>) -> Result<int>)

  /** The result of one step: the new state, whether the worker is still
      in use, and whether the step put a request on the worker's request
      queue (`_load_model` and `_model_execute` do so for a remote server),
      so that the worker's service thread will reply to it. */
  datatype Turn = Turn(next: Sched, inUse: bool, queued: bool)

  /** The row `_start` creates for a newly started server. */
  const Started := WorkerRec(Empty, None, true, None)

  /** `_busy`: some worker is marked in use. */
  predicate Busy(s: Sched) {
    exists w :: w in s.table && s.table[w].inUse
  }

  /** `_cleanup`: forget every queue and worker table. */
  function Cleanup(s: Sched): (r: Sched)
    ensures !Busy(r)
    ensures r.todo == [] && r.rerun == [] && r.table == map[]
    ensures r.recorded == s.recorded && r.source == s.source && r.exhausted == s.exhausted
    ensures r.stop == s.stop && r.cfg == s.cfg
  {
    s.(todo := [], rerun := [], table := map[], transfers := [])
  }

  /** `setup`: clean up and start a fresh case iterator over `cases`. */
  function Setup(s: Sched, cases: seq<Case>): (r: Sched)
    ensures r.source == cases && !r.exhausted
    ensures r.todo == [] && r.rerun == [] && r.table == map[] && r.transfers == []
    ensures r.recorded == s.recorded && r.stop == s.stop && r.cfg == s.cfg
  {
    Cleanup(s).(source := cases, exhausted := false)
  }

  function SetState(s: Sched, w: Worker, st: WState): (r: Sched)
    requires w in s.table
  {
    s.(table := s.table[w := s.table[w].(state := st)])
  }

  /** `_load_model` followed by `_remote_load_model`.  `None` stands for a
      `_ServerError` raised by the load.  The egg is sent to a remote
      worker only when its cached egg differs from the run's egg; after a
      load the cache holds the run's egg.  The local worker has no egg. */
  function LoadModel(s: Sched, w: Worker, ok: bool): (r: Option<Sched>)
    requires w in s.table
    ensures r.Some? <==> ok
    ensures r.Some? ==> r.value.table.Keys == s.table.Keys
    ensures r.Some? ==> r.value.table == s.table[w := r.value.table[w]]
    ensures r.Some? ==> r.value.table[w] == s.table[w].(egg := r.value.table[w].egg)
    ensures r.Some? ==> r.value == s.(table := r.value.table, transfers := r.value.transfers)
    ensures r.Some? && w.Remote? ==> r.value.table[w].egg == Some(s.cfg.egg)
    ensures r.Some? ==> |r.value.transfers| <= |s.transfers| + 1
    ensures r.Some? && w.Remote? && s.table[w].egg == Some(s.cfg.egg) ==> r.value.transfers == s.transfers
    ensures r.Some? && w.Local? ==> r.value == s
  {
    if !ok then None
    else if w.Local? then Some(s)
    else
      var rec := s.table[w];
      if rec.egg != Some(s.cfg.egg) then
        Some(s.(table := s.table[w := rec.(egg := Some(s.cfg.egg))], transfers := s.transfers + [w]))
      else Some(s)
  }

  /** The message of the `_ServerError` raised when setting a value fails. */
  function SetErrorText(name: string, err: string): string {
    "Exception setting '" + name + "': " + err
  }

  /** The `_ServerError` a set outcome raises, if any. */
  function ServerError(setting: SetOutcome): (e: Option<string>)
    ensures e.None? <==> setting.SetOk?
  {
    match setting
    case SetOk => None
    case EventSetFailed(ev, err) => Some(SetErrorText(ev, err))
    case InputSetFailed(name, err) => Some(SetErrorText(name, err))
  }

  /** The message recorded when reading an output fails. */
  function GetErrorText(path: string, name: string, err: string): string {
    path + ": Exception getting '" + name + "': " + err
  }

  /** The case as `_run_case` prepares it before running: a fresh case gets
      zero retries and, when its own limit is falsy, the driver's limit; a
      rerun keeps its counters; the message is cleared either way. */
  function Prepared(c: Case, rerun: bool, default: nat): (p: Case)
    ensures p.id == c.id && p.inputs == c.inputs && p.outputs == c.outputs && p.msg.None?
    ensures rerun ==> p.retries == c.retries && p.maxRetries == c.maxRetries
    ensures !rerun ==> p.retries == 0
    ensures !rerun && c.maxRetries != 0 ==> p.maxRetries == c.maxRetries
    ensures !rerun && c.maxRetries == 0 ==> p.maxRetries == default
  {
    var c1 := if rerun then c
              else c.(maxRetries := if c.maxRetries == 0 then default else c.maxRetries, retries := 0);
    c1.(msg := None)
  }

  /** `_run_case`: put the prepared case in the worker's slot and apply its
      inputs.  On success the worker waits for the run (`Complete`).  A
      `_ServerError` puts the worker in `Error` and either requeues the
      case at the back of `rerun` with one more retry, or, when its retries
      are used up, records it with the error message.  The slot keeps
      referring to the case until the `Error` step clears it. */
  function RunCase(s: Sched, c: Case, w: Worker, rerun: bool, setting: SetOutcome): (r: Sched)
    requires w in s.table
    ensures r.table.Keys == s.table.Keys
    ensures r.source == s.source && r.todo == s.todo && r.exhausted == s.exhausted && r.stop == s.stop
    ensures r.cfg == s.cfg && r.transfers == s.transfers
    ensures r.table[w].current.Some? && r.table[w].current.value.id == c.id
    ensures r.table[w].current.value.inputs == c.inputs
    ensures setting.SetOk? ==> r.table[w].state == Complete && r.rerun == s.rerun && r.recorded == s.recorded
    ensures !setting.SetOk? ==> r.table[w].state == Error
    ensures !setting.SetOk? && r.rerun != s.rerun ==>
      r.recorded == s.recorded && r.rerun == s.rerun + [r.table[w].current.value]
    ensures !setting.SetOk? && r.recorded != s.recorded ==>
      r.rerun == s.rerun && r.recorded == s.recorded + [r.table[w].current.value]
    ensures !setting.SetOk? ==> (r.rerun != s.rerun <==> r.recorded == s.recorded)
    ensures !rerun || c.retries <= c.maxRetries ==>
      r.table[w].current.value.retries <= r.table[w].current.value.maxRetries
  {
    var p := Prepared(c, rerun, s.cfg.maxRetries);
    var rec := s.table[w];
    match ServerError(setting)
    case None =>
      s.(table := s.table[w := rec.(state := Complete, current := Some(p))])
    case Some(err) =>
      if p.retries < p.maxRetries then
        var q := p.(retries := p.retries + 1);
        s.(rerun := s.rerun + [q], table := s.table[w := rec.(state := Error, current := Some(q))])
      else
        var q := p.(msg := Some(err));
        s.(recorded := s.recorded + [q], table := s.table[w := rec.(state := Error, current := Some(q))])
  }

  /** The case `_run_case` leaves in the slot, and the retry policy of its
      `_ServerError` handler: a case that set up cleanly is the prepared
      case; a failed case below its limit is requeued with one more retry,
      and one at its limit is recorded with the error's text. */
  lemma RetryPolicy(s: Sched, c: Case, w: Worker, rerun: bool, setting: SetOutcome)
    requires w in s.table
    ensures var r := RunCase(s, c, w, rerun, setting);
      setting.SetOk? ==> r.table[w].current == Some(Prepared(c, rerun, s.cfg.maxRetries))
    ensures var r := RunCase(s, c, w, rerun, setting);
      var p := Prepared(c, rerun, s.cfg.maxRetries);
      !setting.SetOk? && p.retries < p.maxRetries ==>
      && r.table[w].current == Some(p.(retries := p.retries + 1))
      && r.rerun == s.rerun + [p.(retries := p.retries + 1)] && r.recorded == s.recorded
    ensures var r := RunCase(s, c, w, rerun, setting);
      var p := Prepared(c, rerun, s.cfg.maxRetries);
      !setting.SetOk? && p.retries >= p.maxRetries ==>
      && r.table[w].current == Some(p.(msg := ServerError(setting)))
      && r.recorded == s.recorded + [p.(msg := ServerError(setting))] && r.rerun == s.rerun
  {
  }

  /** Whether reading output `o` raises. */
  predicate FetchFails(fetch: (string, Option<int>) -> Result<int>, o: Output) {
    fetch(o.name, o.index).Err?
  }

  /** Output `j` is the last one whose read fails. */
  predicate LastFailure(fetch: (string, Option<int>) -> Result<int>, outs: seq<Output>, j: int) {
    && 0 <= j < |outs| && FetchFails(fetch, outs[j])
    && forall k :: j < k < |outs| ==> !FetchFails(fetch, outs[k])
  }

  /** The exception text of a failed read. */
  function FetchError(fetch: (string, Option<int>) -> Result<int>, o: Output): string
    requires FetchFails(fetch, o)
  {
    fetch(o.name, o.index).msg
  }

  /** The output-harvesting loop of the `_COMPLETE` branch: every output
      that can be read gets its value and the others keep theirs. */
  function Harvest(outs: seq<Output>, fetch: (string, Option<int>) -> Result<int>, path: string, msg: Option<string>)
    : (r: (seq<Output>, Option<string>))
    ensures |r.0| == |outs|
    ensures forall i :: 0 <= i < |outs| ==> r.0[i].name == outs[i].name && r.0[i].index == outs[i].index
    ensures forall i :: 0 <= i < |outs| && !FetchFails(fetch, outs[i]) ==>
      r.0[i].value == Some(fetch(outs[i].name, outs[i].index).value)
    ensures forall i :: 0 <= i < |outs| && FetchFails(fetch, outs[i]) ==> r.0[i].value == outs[i].value
    decreases |outs|
  {
    if outs == [] then ([], msg)
    else
      var o := outs[0];
      var head := HarvestOne(o, fetch, path, msg);
      var rest := Harvest(outs[1..], fetch, path, head.1);
      assert forall k :: 0 <= k < |outs| - 1 ==> outs[1..][k] == outs[k + 1];
      ([head.0] + rest.0, rest.1)
  }

  /** One iteration of the harvesting loop. */
  function HarvestOne(o: Output, fetch: (string, Option<int>) -> Result<int>, path: string, msg: Option<string>)
    : (r: (Output, Option<string>))
  {
    match fetch(o.name, o.index)
    case Ok(v) => (o.(value := Some(v)), msg)
    case Err(e) => (o, Some(GetErrorText(path, o.name, e)))
  }

  /** When every read succeeds, harvesting leaves the message alone. */
  lemma {:induction false} HarvestKeepsMessage(outs: seq<Output>, fetch: (string, Option<int>) -> Result<int>, path: string, msg: Option<string>)
    requires forall i :: 0 <= i < |outs| ==> !FetchFails(fetch, outs[i])
    ensures Harvest(outs, fetch, path, msg).1 == msg
    decreases |outs|
  {
    if outs != [] {
      assert !FetchFails(fetch, outs[0]);
      var tail := outs[1..];
      assert forall i :: 0 <= i < |tail| ==> tail[i] == outs[i + 1];
      HarvestKeepsMessage(tail, fetch, path, msg);
    }
  }

  /** After harvesting, the message is the one of the LAST failing read. */
  lemma {:induction false} HarvestLastError(outs: seq<Output>, fetch: (string, Option<int>) -> Result<int>, path: string, msg: Option<string>, j: int)
    requires LastFailure(fetch, outs, j)
    ensures Harvest(outs, fetch, path, msg).1 == Some(GetErrorText(path, outs[j].name, FetchError(fetch, outs[j])))
    decreases |outs|
  {
    var head := HarvestOne(outs[0], fetch, path, msg);
    var tail := outs[1..];
    assert Harvest(outs, fetch, path, msg).1 == Harvest(tail, fetch, path, head.1).1;
    assert forall i :: 0 <= i < |tail| ==> tail[i] == outs[i + 1];
    if j == 0 {
      HarvestKeepsMessage(tail, fetch, path, head.1);
    } else {
      HarvestLastError(tail, fetch, path, head.1, j - 1);
    }
  }

  /** The case as the `_COMPLETE` branch records it: a model-execution
      exception becomes the message (no retry); otherwise the outputs are
      harvested. */
  function Completed(c: Case, o: Outcome, path: string): (d: Case)
    ensures d.id == c.id && d.inputs == c.inputs
    ensures d.retries == c.retries && d.maxRetries == c.maxRetries
    ensures o.execError.Some? ==> d.msg == o.execError && d.outputs == c.outputs
    ensures o.execError.None? ==> |d.outputs| == |c.outputs|
    ensures o.execError.None? ==> forall i :: 0 <= i < |c.outputs| ==>
      && d.outputs[i].name == c.outputs[i].name && d.outputs[i].index == c.outputs[i].index
      && d.outputs[i].value == (if FetchFails(o.fetch, c.outputs[i]) then c.outputs[i].value
                                else Some(o.fetch(c.outputs[i].name, c.outputs[i].index).value))
  {
    match o.execError
    case Some(e) => c.(msg := Some(e))
    case None =>
      var h := Harvest(c.outputs, o.fetch, path, c.msg);
      c.(outputs := h.0, msg := h.1)
  }

  /** The message a completed case is recorded with: the model's exception
      if it raised; otherwise the previous message when every output could
      be read, and else the error of the last output that could not. */
  lemma CompletedMessage(c: Case, o: Outcome, path: string)
    ensures o.execError.Some? ==> Completed(c, o, path).msg == o.execError
    ensures o.execError.None? && (forall i :: 0 <= i < |c.outputs| ==> !FetchFails(o.fetch, c.outputs[i])) ==>
      Completed(c, o, path).msg == c.msg
    ensures o.execError.None? ==> forall j :: LastFailure(o.fetch, c.outputs, j) ==>
      Completed(c, o, path).msg == Some(GetErrorText(path, c.outputs[j].name, FetchError(o.fetch, c.outputs[j])))
  {
    if o.execError.None? {
      if forall i :: 0 <= i < |c.outputs| ==> !FetchFails(o.fetch, c.outputs[i]) {
        HarvestKeepsMessage(c.outputs, o.fetch, path, c.msg);
      }
      forall j | LastFailure(o.fetch, c.outputs, j)
        ensures Completed(c, o, path).msg == Some(GetErrorText(path, c.outputs[j].name, FetchError(o.fetch, c.outputs[j])))
      {
        HarvestLastError(c.outputs, o.fetch, path, c.msg, j);
      }
    }
  }

  /** Whether the `_COMPLETE` branch reloads the model: always after a
      failure (a truthy message), and after a success only when the
      driver's `reload_model` is set. */
  predicate ReloadWanted(msg: Option<string>, reloadModel: bool) {
    if Falsy(msg) then reloadModel else true
  }

  /** A step of worker `w` touches no other worker's row, keeps the
      settings, the stop flag and the in-use flag, and only appends to the
      recorded log. */
  predicate OnlyRowChanged(s: Sched, r: Sched, w: Worker) {
    && w in s.table
    && r.table.Keys == s.table.Keys
    && (forall v :: v in s.table && v != w ==> r.table[v] == s.table[v])
    && r.table[w].inUse == s.table[w].inUse
    && r.stop == s.stop && r.cfg == s.cfg
    && s.recorded <= r.recorded
  }

  /** The `_EMPTY` branch. */
  function EmptyTurn(s: Sched, w: Worker, loadOk: bool): (t: Turn)
    requires w in s.table && s.table[w].state == Empty
    ensures OnlyRowChanged(s, t.next, w)
    ensures t.next.table[w].current == s.table[w].current
    ensures t.next.source == s.source && t.next.exhausted == s.exhausted
    ensures t.next.todo == s.todo && t.next.rerun == s.rerun && t.next.recorded == s.recorded
    ensures t.queued <==> w.Remote? && t.next.table[w].state == Ready
    ensures !t.inUse <==> s.todo == [] && s.rerun == [] && s.exhausted
    ensures !t.inUse ==> t.next == s
    ensures t.inUse ==> t.next.table[w].state == (if loadOk then Ready else Error)
  {
    if s.todo == [] && s.rerun == [] && s.exhausted then Turn(s, false, false)
    else match LoadModel(s, w, loadOk)
      case None => Turn(SetState(s, w, Error), true, false)
      case Some(s1) => Turn(SetState(s1, w, Ready), true, w.Remote?)
  }

  /** Worker `w` holds case `c` in its slot, with `c`'s identity and inputs. */
  predicate Holds(s: Sched, w: Worker, c: Case) {
    w in s.table && s.table[w].current.Some?
    && s.table[w].current.value.id == c.id && s.table[w].current.value.inputs == c.inputs
  }

  /** The `_READY` branch: a stop request retires the worker; otherwise the
      work is the front of `todo`, else the front of `rerun`, else (unless
      the iterator is exhausted or we are stepping) the next case of the
      source; an empty source marks the iterator exhausted. */
  function ReadyTurn(s: Sched, w: Worker, stepping: bool, setting: SetOutcome): (t: Turn)
    requires w in s.table && s.table[w].state == Ready
    ensures OnlyRowChanged(s, t.next, w)
    ensures t.next.table[w].state == Ready ==> t.next.table[w].current == s.table[w].current
    ensures t.next.transfers == s.transfers && t.next.table[w].egg == s.table[w].egg
    ensures stepping ==> t.next.source == s.source && t.next.exhausted == s.exhausted
    ensures (s.exhausted ==> s.source == []) ==> (t.next.exhausted ==> t.next.source == [])
    ensures t.queued <==> w.Remote? && t.next.table[w].state == Complete
  {
    var queued := w.Remote? && setting.SetOk?;
    if s.stop then Turn(s, false, false)
    else if s.todo != [] then Turn(RunCase(s.(todo := s.todo[1..]), s.todo[0], w, false, setting), true, queued)
    else if s.rerun != [] then Turn(RunCase(s.(rerun := s.rerun[1..]), s.rerun[0], w, true, setting), true, queued)
    else if s.exhausted then Turn(s, false, false)
    else if stepping then Turn(s, false, false)
    else if s.source == [] then Turn(s.(exhausted := true), false, false)
    else Turn(RunCase(s.(source := s.source[1..]), s.source[0], w, false, setting), true, queued)
  }

  /** The priority order of the `_READY` branch. */
  lemma ReadyTurnOrder(s: Sched, w: Worker, stepping: bool, setting: SetOutcome)
    requires w in s.table && s.table[w].state == Ready
    ensures var t := ReadyTurn(s, w, stepping, setting);
      t.inUse ==> t.next.table[w].state == (if setting.SetOk? then Complete else Error)
    // A stop request retires the worker and changes nothing.
    ensures var t := ReadyTurn(s, w, stepping, setting);
      s.stop ==> !t.inUse && t.next == s
    // Otherwise the front of `todo` runs first,
    ensures var t := ReadyTurn(s, w, stepping, setting);
      !s.stop && s.todo != [] ==>
      && t.inUse && Holds(t.next, w, s.todo[0]) && t.next.todo == s.todo[1..]
      && t.next.source == s.source && t.next.exhausted == s.exhausted
    // then the front of `rerun`,
    ensures var t := ReadyTurn(s, w, stepping, setting);
      !s.stop && s.todo == [] && s.rerun != [] ==>
      && t.inUse && Holds(t.next, w, s.rerun[0]) && t.next.todo == [] && s.rerun[1..] <= t.next.rerun
      && t.next.source == s.source && t.next.exhausted == s.exhausted
    // then an exhausted iterator or a stepping call retires the worker,
    ensures var t := ReadyTurn(s, w, stepping, setting);
      !s.stop && s.todo == [] && s.rerun == [] && (s.exhausted || stepping) ==> !t.inUse && t.next == s
    // and otherwise the next case is pulled, or the iterator is found empty.
    ensures var t := ReadyTurn(s, w, stepping, setting);
      !s.stop && s.todo == [] && s.rerun == [] && !s.exhausted && !stepping && s.source != [] ==>
      && t.inUse && Holds(t.next, w, s.source[0]) && t.next.source == s.source[1..] && !t.next.exhausted
    ensures var t := ReadyTurn(s, w, stepping, setting);
      !s.stop && s.todo == [] && s.rerun == [] && !s.exhausted && !stepping && s.source == [] ==>
      !t.inUse && t.next == s.(exhausted := true)
  {
    if s.stop {
    } else if s.todo != [] {
      var r := RunCase(s.(todo := s.todo[1..]), s.todo[0], w, false, setting);
      assert ReadyTurn(s, w, stepping, setting).next == r;
    } else if s.rerun != [] {
      var r := RunCase(s.(rerun := s.rerun[1..]), s.rerun[0], w, true, setting);
      assert ReadyTurn(s, w, stepping, setting).next == r;
    } else if s.exhausted || stepping {
    } else if s.source != [] {
      var r := RunCase(s.(source := s.source[1..]), s.source[0], w, false, setting);
      assert ReadyTurn(s, w, stepping, setting).next == r;
    }
  }

  /** The `_COMPLETE` branch.  The case leaves the slot and is recorded
      once; then the model is reloaded if wanted.  A reload that raises
      leaves the worker in `Complete` with an empty slot, and a `Complete`
      step with an empty slot raises `AttributeError` on `None`. */
  function CompleteTurn(s: Sched, w: Worker, o: Outcome): (r: Result<Turn>)
    requires w in s.table && s.table[w].state == Complete
    ensures r.Ok? ==> OnlyRowChanged(s, r.value.next, w)
    ensures r.Ok? ==> r.value.next.table[w].current.None?
    ensures r.Ok? ==> r.value.next.source == s.source && r.value.next.exhausted == s.exhausted
    ensures r.Ok? <==> s.table[w].current.Some?
    ensures r.Ok? ==> r.value.inUse && r.value.next.todo == s.todo && r.value.next.rerun == s.rerun
    ensures r.Ok? ==> r.value.next.recorded == s.recorded + [Completed(s.table[w].current.value, o, s.cfg.pathname)]
    ensures r.Ok? ==>
      var wanted := ReloadWanted(Completed(s.table[w].current.value, o, s.cfg.pathname).msg, s.cfg.reloadModel);
      r.value.next.table[w].state == (if !wanted || o.loadOk then Ready else Complete)
  {
    match s.table[w].current
    case None =>
      if o.execError.None? then Err("'NoneType' object has no attribute 'outputs'")
      else Err("'NoneType' object has no attribute 'msg'")
    case Some(c) =>
      var d := Completed(c, o, s.cfg.pathname);
      var s1 := s.(table := s.table[w := s.table[w].(current := None)], recorded := s.recorded + [d]);
      Ok(Reload(s1, w, ReloadWanted(d.msg, s.cfg.reloadModel), o.loadOk))
  }

  /** The end of the `_COMPLETE` branch, once the case is recorded: reload
      if wanted, and become `Ready` unless the reload raised. */
  function Reload(s: Sched, w: Worker, wanted: bool, loadOk: bool): (t: Turn)
    requires w in s.table && s.table[w].state == Complete && s.table[w].current.None?
    ensures OnlyRowChanged(s, t.next, w) && t.next.table[w].current.None? && t.inUse
    ensures t.next.recorded == s.recorded
    ensures t.next.table[w].state == Ready <==> !wanted || loadOk
    ensures t.next.table[w].state != Ready ==> t.next.table[w].state == s.table[w].state
    ensures t.queued <==> w.Remote? && wanted && loadOk
  {
    if wanted then
      match LoadModel(s, w, loadOk)
      case None => Turn(s, true, false)
      case Some(s2) => Turn(SetState(s2, w, Ready), true, w.Remote?)
    else Turn(SetState(s, w, Ready), true, false)
  }

  /** The `_ERROR` branch: clear the slot and try to reload. */
  function ErrorTurn(s: Sched, w: Worker, loadOk: bool): (t: Turn)
    requires w in s.table && s.table[w].state == Error
    ensures OnlyRowChanged(s, t.next, w)
    ensures t.next.table[w].current.None?
    ensures t.next.source == s.source && t.next.exhausted == s.exhausted
    ensures t.next.todo == s.todo && t.next.rerun == s.rerun && t.next.recorded == s.recorded
    ensures t.queued <==> w.Remote? && t.next.table[w].state == Ready
    ensures t.inUse
    ensures t.next.table[w].state == (if loadOk then Ready else Error)
  {
    var s1 := s.(table := s.table[w := s.table[w].(current := None)]);
    match LoadModel(s1, w, loadOk)
    case None => Turn(s1, true, false)
    case Some(s2) => Turn(SetState(s2, w, Ready), true, w.Remote?)
  }

  /** `_server_ready`: one step of worker `w`. */
  function ServerReady(s: Sched, w: Worker, stepping: bool, o: Outcome): (r: Result<Turn>)
    requires w in s.table
    ensures r.Ok? ==> OnlyRowChanged(s, r.value.next, w)
    ensures r.Ok? && stepping ==> r.value.next.source == s.source && r.value.next.exhausted == s.exhausted
    ensures r.Ok? && !r.value.inUse ==> r.value.next.table == s.table && r.value.next.todo == s.todo
    ensures r.Ok? && !r.value.inUse ==> s.table[w].state == Empty || s.table[w].state == Ready
    ensures r.Ok? && !r.value.inUse && !s.stop ==>
      r.value.next.todo == [] && r.value.next.rerun == [] && (r.value.next.exhausted || stepping)
    ensures r.Err? ==> s.table[w].state == Complete && s.table[w].current.None?
    ensures r.Ok? && r.value.queued ==> w.Remote? && r.value.inUse
  {
    match s.table[w].state
    case Empty => Ok(EmptyTurn(s, w, o.loadOk))
    case Ready => Ok(ReadyTurn(s, w, stepping, o.setting))
    case Complete => CompleteTurn(s, w, o)
    case Error => Ok(ErrorTurn(s, w, o.loadOk))
  }

  /** One step of worker `w`, after any stop request that arrived first. */
  function Tick(s: Sched, w: Worker, stepping: bool, o: Outcome): Result<Turn>
    requires w in s.table
  {
    ServerReady(s.(stop := s.stop || o.stopRequest), w, stepping, o)
  }

  /** `_run_case` exactly as written: when setting an event fails, the
      handler formats its message with `name`, which is only bound later by
      the input loop, so an `UnboundLocalError` escapes instead of a
      `_ServerError`. */
  function RunCaseAsWritten(s: Sched, c: Case, w: Worker, rerun: bool, setting: SetOutcome): (r: Result<Sched>)
    requires w in s.table
    ensures r.Err? <==> setting.EventSetFailed?
    ensures r.Ok? ==> r.value == RunCase(s, c, w, rerun, setting)
  {
    if setting.EventSetFailed? then Err("local variable 'name' referenced before assignment")
    else Ok(RunCase(s, c, w, rerun, setting))
  }

  /** A fresh case whose limit allows a retry, on a worker whose event
      setting fails: as written the step aborts with `UnboundLocalError`,
      although the case should have been queued for a retry. */
  lemma EventFailureAborts(s: Sched, c: Case, w: Worker, event: string, err: string)
    requires w in s.table && c.maxRetries > 0
    ensures RunCaseAsWritten(s, c, w, false, EventSetFailed(event, err)).Err?
    ensures var r := RunCase(s, c, w, false, EventSetFailed(event, err));
      r.rerun != s.rerun
  {
  }

  /** The corrected `_run_case` treats a failed event like a failed input:
      the case is retried while it has retries left and is otherwise
      recorded with a message naming the event. */
  lemma EventFailureRetried(s: Sched, c: Case, w: Worker, rerun: bool, event: string, err: string)
    requires w in s.table
    ensures var r := RunCase(s, c, w, rerun, EventSetFailed(event, err));
      var q := r.table[w].current.value;
      && r.table[w].state == Error
      && q.id == c.id && q.inputs == c.inputs
      && ((r.rerun == s.rerun + [q] && q.msg.None? && r.recorded == s.recorded)
          || (r.recorded == s.recorded + [q] && q.msg == Some(SetErrorText(event, err)) && r.rerun == s.rerun))
      && (r.rerun != s.rerun <==> Prepared(c, rerun, s.cfg.maxRetries).retries < Prepared(c, rerun, s.cfg.maxRetries).maxRetries)
  {
  }
}
